=== FILE: README.md ===
# Expense tracker: a Dafny model of its rules

The expense tracker is a small Express + SQLite web application. Users register and log in. Each user records expenses and picks categories copied from a shared template. The dashboard shows spending against a monthly budget.

This project models the parts of the application that decide something:

- **`expense.dfy`** (`ExpenseModel`): the owner-scoped expense store of `models/Expense.js`.
  - An `ExpenseTable` class holds the rows and the next AUTOINCREMENT id.
  - Every SQL statement is one assignment to the table.
  - Lookup, update and delete match on both the id and the owner.
- **`database.dfy`** (`Database`): the users and categories tables of `database/database.js`.
  - It covers their column defaults and UNIQUE constraints.
  - It covers the one-time seeding of the eight template categories (rows whose owner is NULL).
- **`user.dfy`** (`UserModel`): the static methods of `models/User.js`, run against a shared `Db` object.
  - registration, with a unique email and a by-value copy of the template;
  - lookup by email;
  - the settings columns.
  - bcrypt is a function parameter. The failures of bcrypt and of the statements of `create` are boolean parameters.
- **`dashboard.dfy`** (`Dashboard`): the budget alert, the progress-bar width and the budget check in `dashboard.js`.
  - These are stated over JavaScript numbers (`NaN`, the infinities, finite reals).
- **`login.dfy`** (`Login`): the form validation in `login.js`, including the email pattern `^[^\s@]+@[^\s@]+\.[^\s@]+$`.
  - The pattern is proved equal to a plain description of an email's shape.
- **`frontend.dfy`** (`Frontend`): the rules of `frontend/script.js`:
  - login state and redirects;
  - request headers;
  - the expense-listing query string;
  - the theme switch, as a `ThemeState` class.
- **`common.dfy`** (`Common`): `Option`, `Result`, and JavaScript truthiness of an optional string (`Truthy`, `OrElse` for `x || fallback`).

Modelling conventions:

- **SQL statements.** A `.get` returns the first matching row in table order. An UPDATE or DELETE acts on every matching row, and `changes` counts them.
- **Ordering.** `ORDER BY date` compares text by code point, which is SQLite's BINARY collation.
- **Missing values.** A value the caller leaves `undefined`, or a localStorage key that is missing, is `None`.

## Model

| member | source | states |
|---|---|---|
| ExpenseModel.ExpenseTable.CreateExpense | models/Expense.js:3-8 | Appends exactly one row: the id is the table's next AUTOINCREMENT value, above every existing id, and the counter advances by one, so no id is ever issued twice, even after a delete; owner `userId`, `''` for a falsy note, `now` for a falsy date; the returned object echoes the caller's note and date, not the stored defaults; looking up the returned id for that owner gives back exactly the stored row; no other owner's rows change |
| ExpenseModel.LookupFresh | models/Expense.js:6-17 | A row appended with an id above every existing id is what a lookup of its (id, owner) returns |
| ExpenseModel.ExpenseTable.GetExpensesByUser | models/Expense.js:10-13 | Result is sorted by date descending and holds every row of the caller, each as often as the table does, and no row of anyone else |
| ExpenseModel.Listing | models/Expense.js:12 | The listing is sorted by date descending and holds each of the owner's rows with its multiplicity and no other row |
| ExpenseModel.SortByDateDesc | models/Expense.js:12 | `ORDER BY date DESC`: the result is sorted (each date ≥ the next) and a permutation of its input |
| ExpenseModel.OwnedByCounts | models/Expense.js:12 | `WHERE user_id = ?` keeps each of the owner's rows with its multiplicity and drops all others |
| ExpenseModel.ExpenseTable.GetExpenseById | models/Expense.js:15-18 | Returns a row only if both its id and owner match; returns nothing iff no row matches both |
| ExpenseModel.Lookup | models/Expense.js:17 | `.get` on `id = ? AND user_id = ?`: a found row is in the table and matches both; nothing found means no row matches |
| ExpenseModel.LookupSeesOnlyOwnRows | models/Expense.js:17 | A lookup over the whole table equals the lookup over the caller's rows alone |
| ExpenseModel.ForeignRowsUnobservable | models/Expense.js:12-17 | Two tables with the same rows for a user give that user identical lookups and listings: other owners' rows leak nothing |
| ExpenseModel.ForeignRowIsMissing | models/Expense.js:17 | Adding a row owned by someone else, with any id, leaves every lookup of the caller unchanged: foreign is indistinguishable from missing |
| ExpenseModel.ExpenseTable.constructor | database/database.js:40-42 | An empty table whose first AUTOINCREMENT id is 1 |
| ExpenseModel.ExpenseTable.UpdateExpense | models/Expense.js:20-31 | Missing or foreign (id, owner): returns None and the table is unchanged. Otherwise returns the patched row as read back, the table is the UPDATE of exactly the matching row, and other owners' rows are untouched |
| ExpenseModel.Merge | models/Expense.js:24-27 | The patch never changes the id or the owner |
| ExpenseModel.MergeIsPatch | models/Expense.js:24-27 | Each of amount, category, note, date is the supplied value when defined, else the existing one |
| ExpenseModel.MergeEmptyAndIdempotent | models/Expense.js:24-27 | An all-undefined patch changes nothing; applying a patch twice equals applying it once |
| ExpenseModel.SetWhere | models/Expense.js:28-29 | The UPDATE keeps the table's length and changes exactly the rows matching (id, owner), each taking the four new values |
| ExpenseModel.SetWhereKeepsOtherOwners | models/Expense.js:28-29 | After an update, every other owner's rows are exactly as before |
| ExpenseModel.LookupAfterSet | models/Expense.js:28-30 | After the UPDATE, looking up the same (id, owner) returns the merged row |
| ExpenseModel.ExpenseTable.DeleteExpense | models/Expense.js:33-37 | Returns true iff a row with (id, owner) existed; then exactly that row is removed; afterwards no row matches, so a second delete returns false; a delete that finds nothing leaves the table unchanged; other owners' rows are untouched |
| ExpenseModel.RemoveNothing | models/Expense.js:35-36 | A DELETE that matches no row leaves the table exactly as it was |
| ExpenseModel.RemoveWhere | models/Expense.js:35 | The DELETE never grows the table, and shrinks it iff some row matches (id, owner) |
| ExpenseModel.RemoveWhereCounts | models/Expense.js:35 | The DELETE drops every matching row and keeps every other row with its multiplicity |
| ExpenseModel.RemovesExactlyTheRow | models/Expense.js:35-36 | With distinct ids, a delete that finds a row removes one row, exactly the one a lookup returns |
| ExpenseModel.RemoveWhereIdempotent | models/Expense.js:35 | Deleting twice is deleting once |
| ExpenseModel.RemoveWhereKeepsOtherOwners | models/Expense.js:35 | After a delete, every other owner's rows are exactly as before |
| ExpenseModel.RemoveWhereKeepsSubsequence | models/Expense.js:35 | Surviving rows keep their order, so ids stay increasing |
| Database.Db.constructor | database/database.js:16-37 | A fresh database has both tables empty and AUTOINCREMENT ids starting at 1 |
| Database.Db.InitializeDatabase | database/database.js:54-73 | On an empty categories table inserts exactly the eight defaults, NULL owner, in listed order, with the category id counter advanced by eight, and the template is then those eight; on a non-empty table inserts nothing; users are untouched; the schema's constraints hold afterwards |
| Database.Db.InsertTemplateRows | database/database.js:67-71 | The prepared insert run once per style appends one row per style, in order, with consecutive ids |
| Database.DefaultNamesDistinct | database/database.js:56-65 | There are eight defaults and their names are pairwise distinct |
| Database.SeededTable | database/database.js:36 | The seeded rows satisfy UNIQUE(user_id, name) and list back exactly the defaults |
| Database.StylesOfDistinct | database/database.js:36 | Under UNIQUE(user_id, name) the category names of any one owner are distinct |
| Database.AppendRowsKeepsUnique | database/database.js:36 | Appending distinct names for an owner who has none keeps UNIQUE(user_id, name) |
| Database.StylesOfRows | database/database.js:67-69 | Rows inserted for one owner list back exactly the inserted styles for that owner and nothing for anyone else |
| Database.TemplateEditsDoNotReachCopies | models/User.js:21-25 | Rewriting the template rows in place changes the template pointwise and leaves every user's copied categories exactly as they were |
| UserModel.Create | models/User.js:5-31 | Check order: a hash failure, then a taken email (fails with "Email already exists"), then an insert failure; every failure changes nothing. On success the row holds `hash(password)` with the column defaults (budget 10000, currency as the schema spells it, theme 'light') under the next AUTOINCREMENT id, and the user id counter advances by one; unless the copy fails, the new user's categories are exactly the template's styles; success is reported even when the copy fails |
| UserModel.CopyTemplate | models/User.js:21-25 | The INSERT ... SELECT appends one row for the new owner per template row, same name, colour and icon, and advances the category id counter by the template's size; the template itself is unchanged; the schema's constraints still hold |
| UserModel.CopyGivesTemplate | models/User.js:21-25 | After the copy, the new owner lists exactly the template and the template is unchanged |
| UserModel.CopyKeepsSchema | database/database.js:28-37 | The copy keeps category ids increasing and UNIQUE(user_id, name) |
| UserModel.FindByEmail | models/User.js:33-38 | Returns a row with that email, or nothing iff none exists; under UNIQUE(email) the returned row is the only one |
| UserModel.FirstUser | models/User.js:34 | `.get` with any WHERE clause: a row that satisfies it and no earlier row does, or None iff no row satisfies it |
| UserModel.UserByEmail | models/User.js:34 | `.get` on `email = ?`: the first row with that email (no earlier row has it), or None iff there is none |
| UserModel.UpdateSettings | models/User.js:40-46 | Writes all three settings of the row with that id, absent ones as NULL (not a patch); no other row or column changes; reports 1 changed row for a known id, 0 otherwise |
| UserModel.CountIdIsZeroOrOne | models/User.js:43-44 | With increasing ids `changes` is 1 for a known id and 0 for an unknown one |
| UserModel.SettingsRoundTrip | models/User.js:40-50 | Reading back after an update gives exactly the settings written, absent fields as NULL |
| UserModel.GetSettings | models/User.js:48-51 | Exactly the three settings columns of the row with that id, or nothing iff no such row |
| UserModel.UserById | models/User.js:49 | `.get` on `id = ?`: the first row with that id (no earlier row has it), or None iff there is none |
| UserModel.SetSettings | models/User.js:42 | The UPDATE keeps every row and its id, name, email and password; rows with that id get exactly the three settings given, all other rows keep theirs |
| Dashboard.BudgetAlert | dashboard.js:105-117 | Danger iff pct ≥ 90; warning iff pct ≥ 80 and not ≥ 90; hidden iff not ≥ 80 (so NaN is hidden); exactly one holds |
| Dashboard.ShowAlert | dashboard.js:105-117 | The element ends with the 'hidden' class iff the alert is hidden; a hidden alert keeps the old text and adds only 'hidden'; danger and warning set their text and exactly the classes 'alert danger' / 'alert warning', with 'hidden' removed |
| Dashboard.AlertLatestWins | dashboard.js:105-117 | Repeating an update changes nothing; a visible alert overwrites whatever an earlier update left; a hidden one keeps the earlier text |
| Dashboard.UpdateDashboard | dashboard.js:91-117 | The label shows the unclamped percentage; the bar is `Math.min(100, pct)` (ProgressWidth), so it never exceeds 100 and equals the percentage up to 100; the alert is danger iff ≥ 90 and hidden iff not ≥ 80; when the page has the alert element, it is exactly what ShowAlert makes of it for that alert: it carries 'hidden' iff the percentage is not ≥ 80, shows the danger text at ≥ 90 and keeps its old text below 80 |
| Dashboard.AlertMonotone | dashboard.js:106-116 | A larger percentage never gives a milder alert |
| Dashboard.AlertBoundaries | dashboard.js:106-116 | 79.99 is hidden, 80 and 89.99 are warnings, 90 and 95 are danger, NaN is hidden |
| Dashboard.ProgressWidth | dashboard.js:92 | `Math.min(100, pct)`: never above 100, equal to pct up to 100, 100 from 100 up (and for +Infinity), NaN only for NaN |
| Dashboard.OverBudgetView | dashboard.js:92-110 | Over 100% the bar stops at 100 while the label shows the unclamped percentage, and the alert element shows the danger text with the classes 'alert danger' |
| Dashboard.WithinBudgetView | dashboard.js:92-95 | Up to 100% bar and label show the same number |
| Dashboard.SaveBudget | dashboard.js:232-242 | A settings call is made iff the parsed value is +Infinity or a positive finite number (NaN, 0, negatives rejected), and its body is `{monthly_budget: value}` only |
| Dashboard.JsonNumber | dashboard.js:242 | In the request body a number is sent as itself iff it is finite; NaN and the infinities become null |
| Dashboard.InfiniteBudgetSentAsNull | dashboard.js:234-242 | As written, a budget parsed as +Infinity passes the check and is sent as `monthly_budget: null` |
| Dashboard.SaveFiniteBudget | dashboard.js:234-242 | Corrected check: a call is made iff the value is finite and positive, and the body then carries that number, never null |
| Dashboard.SaveFiniteBudgetAgrees | dashboard.js:236 | On every finite value the corrected check decides exactly as the code as written |
| Dashboard.NavTarget | dashboard.js:195 | The target is the href without its first character; an empty href gives an empty target |
| Dashboard.NavTargetOfFragment | dashboard.js:195 | The link `#section` targets `section` |
| Login.EmailShape | login.js:65-68 | The email pattern accepts exactly the strings with no whitespace, exactly one '@', a non-empty part before it, and a '.' after it that is neither the first nor the last character of the domain |
| Login.ValidHasShape | login.js:66 | Every accepted email has that shape |
| Login.ShapeIsValid | login.js:66 | Every string of that shape is accepted |
| Login.Message | login.js:52-59 | An error message is shown iff validation does not accept |
| Login.ValidateForm | login.js:51-63 | Missing field iff the email or password is missing or empty; bad email iff both are present and the pattern fails; accepted iff both present and the pattern matches |
| Login.EmptyFieldCheckedFirst | login.js:52-60 | An empty or missing email is reported as a missing field, with 'Please fill in all fields', before the format check |
| Login.LoginCall | login.js:17-31 | The login API is called iff validation accepts, with the form's email and password; the password is then non-empty and the email has the email shape |
| Frontend.IsLoggedIn | frontend/script.js:59-61 | True iff the stored token exists and is non-empty |
| Frontend.IncludesAt | frontend/script.js:64-70 | `includes` holds iff the part occurs at some index |
| Frontend.RedirectToLogin | frontend/script.js:69-73 | Redirects iff not logged in and 'login.html' occurs nowhere in the URL |
| Frontend.RedirectIfLoggedIn | frontend/script.js:63-67 | Redirects iff logged in and 'dashboard.html' occurs nowhere in the URL |
| Frontend.RedirectsSettle | frontend/script.js:63-73 | Neither redirect fires on its own target page, and the two never fire together |
| Frontend.StartupRedirect | frontend/script.js:249-251 | On load the browser goes to dashboard.html iff the user is logged in and the URL contains 'login.html' but not 'dashboard.html'; it goes nowhere else |
| Frontend.BaseHeaders | frontend/script.js:81-84 | Content-Type is always application/json; Authorization `Bearer <token>` is present iff the token is truthy; no other header |
| Frontend.RequestHeaders | frontend/script.js:80-87 | As written: without caller headers the defaults above; with caller headers exactly the caller's headers |
| Frontend.CallerHeadersDropToken | frontend/script.js:80-87 | With a token and one caller header, neither Authorization nor Content-Type is sent |
| Frontend.MergedRequestHeaders | frontend/script.js:80-85 | The intended merge: every caller header as given, Content-Type always present and "application/json" unless the caller sets it, the bearer token kept unless the caller overrides Authorization, nothing else |
| Frontend.MergedAgreesWithoutCallerHeaders | frontend/script.js:80-87 | Without caller headers, the intended merge and the code as written give the same headers |
| Frontend.KeepTruthy | frontend/script.js:132-134 | Never more pairs than filters, and no pair with an empty value |
| Frontend.KeepTruthyAppend | frontend/script.js:132-134 | Filtering distributes over concatenation, so the kept filters keep their key order |
| Frontend.KeepTruthyMembers | frontend/script.js:133 | A (key, value) pair is sent iff a filter with that key has that value and the value is non-empty |
| Frontend.QueryString | frontend/script.js:136 | The query string is empty iff there are no pairs |
| Frontend.GetExpensesEndpoint | frontend/script.js:130-140 | The endpoint is exactly `/expenses` when no filter is truthy, else `/expenses?` followed by the kept filters' query string |
| Frontend.EffectiveTheme | frontend/script.js:215 | A missing or empty theme counts as 'light'; any other value is kept |
| Frontend.NextTheme | frontend/script.js:228-229 | 'dark' iff the current theme (missing counts as 'light') is 'light'; 'light' otherwise, including from 'dark' |
| Frontend.ToggleTwice | frontend/script.js:229 | Toggling twice from 'light' or 'dark' restores it; any other non-empty value goes to 'light' |
| Frontend.IconFor | frontend/script.js:236-241 | The sun icon iff the theme is 'dark', the moon otherwise |
| Frontend.ThemeState.constructor | frontend/script.js:207-218 | The page before `ThemeManager.init` has run: no `data-theme` on the body, storage holding whatever 'theme' was saved before (None if missing), and the toggle icon's class when the page has `#themeToggle i` (None otherwise) |
| Frontend.ThemeState.ApplySavedTheme | frontend/script.js:214-218 | The body gets the saved theme or 'light'; storage is unchanged; the icon follows when the page has one |
| Frontend.ThemeState.ToggleTheme | frontend/script.js:227-234 | The body gets the next theme, storage gets the same value, the icon follows when the page has one |
| Frontend.ThemeState.UpdateThemeIcon | frontend/script.js:236-241 | The icon's class is set only when the page has the icon element |

## Left out

- The DOM, event listeners, `fetch`, `setTimeout`, `showMessage`, loading spinners, the CSV export and the blob download. They are effects on the browser. The model takes their inputs as parameters: localStorage values, the page URL, the form fields, the parsed budget.
- `formatCurrency` and `toFixed` are float formatting. The model keeps only the choice of number each label shows (unclamped versus clamped), not its digits.
- `parseFloat`: `SaveBudget` takes the number `parseFloat` already returned.
- Other float formatting and parsing is left out too. Amounts and budgets are exact reals, not IEEE doubles.
- `JSON.stringify` of request bodies, and percent-encoding in `URLSearchParams`. `QueryString` joins `key=value` pairs with `&` and leaves keys and values as given.
- ExpenseModel.Expense: only string, number and undefined field values are modelled. A `null` patch value, and the JavaScript values SQLite would coerce, are not.
- UserModel.CopyTemplate: the `INSERT ... SELECT ... WHERE user_id IS NULL` at models/User.js:21-24 has no ORDER BY, so SQLite may read the template in another order, for example in name order through the UNIQUE(user_id, name) index. The model copies in the template's table order. `CopyTemplate`, `CopyGivesTemplate` and `UserModel.Create` state the new rows, and so the order of their ids, under that fixed order; SQLite itself promises only one copy per template row with the same name, colour and icon.
- ExpenseModel.ExpenseTable.GetExpensesByUser: SQLite may return rows with equal dates in any order. The model fixes one order for them, that of its insertion sort. `GetExpensesByUser` returns `Listing`, and `ForeignRowsUnobservable` proves two listings equal, only under that fixed order; SQLite itself promises only the sortedness and the exact multiset that `Listing` also states.
- The `created_at` columns and the current time: `CreateExpense` takes the timestamp as the parameter `now`.
- The column defaults color '#3b82f6' and icon 'tag' of categories (database/database.js:32-33). Every insert in the modelled code supplies both columns, so the defaults never apply.
- The mismatch between the columns models/Expense.js writes (`note`) and the expenses schema in database/database.js (`title`, `payment_method`, `notes`). The expense store is modelled against the columns its own file uses.
- The `getDB()` accessor, connection setup and statement lifecycle. The model has one in-memory table per database.
- SQLite treats NULLs as distinct in UNIQUE constraints. The model states UNIQUE(user_id, name) for template rows as well, and the seed and the copy keep it.
- The foreign key from categories to users is only checked as "owner below the next user id" in `Db.Valid`. Users are never deleted here.
- UserModel.Create: bcrypt is any function of the password. The model does not state that it is salted or one-way. The callback's `err` objects other than the UNIQUE message are collapsed into `HashFailed` and `InsertFailed`. The failed copy is logged to the console; that logging is not modelled.
- The asynchronous order of the callbacks. Every SQL statement is one atomic step, and `create` runs its statements in program order with no interleaving.
- Dashboard.ShowAlert: the element's `className` is kept as its set of class names; the order and spacing of the attribute's text are not modelled.
- Strings (Dashboard.NavTarget and every other string operation): a Dafny string is a sequence of Unicode scalar values, while JavaScript counts UTF-16 code units. `substring(1)` at dashboard.js:195 leaves half a surrogate pair when the href starts with a character outside the Basic Multilingual Plane, and the model drops the whole character. UTF-16 encoding is not modelled.
- Dashboard.UpdateDashboard: the summary arrives as JSON (dashboard.js:61), where a NaN or infinite percentage would be `null`. With `null` the bar width is 0; when the page has the `#budgetPercentage` element (the guard at dashboard.js:94), `toFixed` at dashboard.js:95 throws before the alert is set. The model takes the percentage as a JavaScript number and does not model the `null` case.
- UserModel.FindByEmail, UserModel.UpdateSettings, UserModel.GetSettings: the `err` a failing statement passes to the callback (models/User.js:36, 44, 50) is not modelled. These members describe a statement that succeeds.
- The state of `DashboardManager` (`currentSection`, `expenses`, `categories`), chart loading, insights, filtering and the empty stub methods. The dashboard summary arithmetic (totals, daily average, remaining budget) is computed in route files that are not part of this model.
- server.js: Express routing, middleware and static serving are plumbing.
- `Utils.getCurrentUser` and the login response handling after the API call (storing the token, the delayed redirect) are effects.

## Findings

| source | as written | input that shows it | evidently intended | confidence | as-written member | corrected member |
|---|---|---|---|---|---|---|
| frontend/script.js:80-87 | `config` spreads `...options` after building `headers`, so a caller's `options.headers` replaces the merged object | a stored token `t` and `options.headers = {'X-Request-Id': '1'}`: no `Authorization` and no `Content-Type` is sent | the caller's headers merged over the defaults, keeping the bearer token and the JSON content type | medium, not executed; no call in script.js passes headers today | Frontend.RequestHeaders, Frontend.CallerHeadersDropToken | Frontend.MergedRequestHeaders, Frontend.MergedAgreesWithoutCallerHeaders |
| dashboard.js:234-242 | `!budgetValue \|\| budgetValue <= 0` lets +Infinity through, and the body is serialised with `JSON.stringify` | a budget input `1e400`: `parseFloat` gives Infinity, the check passes, and the request carries `"monthly_budget": null` | only a finite positive budget is sent | low, not executed; depends on the input element accepting such a value | Dashboard.SaveBudget, Dashboard.InfiniteBudgetSentAsNull | Dashboard.SaveFiniteBudget, Dashboard.SaveFiniteBudgetAgrees |

=== FILE: common.dfy ===
/** Small value types shared by the models of the server and of the browser scripts. */
module Common {

  /** A value that may be absent: a JavaScript `undefined`/`null` or an SQL NULL. */
  datatype Option<T> = None | Some(value: T)

  /** The outcome of an operation that can fail with an error of type E. */
  datatype Result<T, E> = Success(value: T) | Failure(error: E)

  /** JavaScript truthiness of an optional string: present and not empty. */
  predicate Truthy(s: Option<string>)
  {
    s.Some? && s.value != ""
  }

  /** JavaScript's `s || fallback` on an optional string. */
  function OrElse(s: Option<string>, fallback: string): string
  {
    if Truthy(s) then s.value else fallback
  }
}

=== FILE: dashboard.dfy ===
/**
 * The decisions DashboardManager takes in dashboard.js: the budget alert and
 * the progress-bar width derived from the summary's percentage, the check
 * made before the budget is sent, and the section a sidebar link targets.
 */
module Dashboard {
  import opened Common

  /** A JavaScript number: NaN, one of the infinities, or a finite value (-0 is 0). */
  datatype JsNumber = NaN | PosInf | NegInf | Finite(r: real)

  /** JavaScript's `x >= k` for a finite constant `k`; any comparison with NaN is false. */
  predicate AtLeast(x: JsNumber, k: real)
  {
    match x
    case NaN => false
    case PosInf => true
    case NegInf => false
    case Finite(r) => r >= k
  }

  /** JavaScript's `x <= y`; false when either side is NaN. */
  predicate LessOrEqual(x: JsNumber, y: JsNumber)
  {
    match (x, y)
    case (NaN, _) => false
    case (_, NaN) => false
    case (NegInf, _) => true
    case (_, PosInf) => true
    case (PosInf, _) => false
    case (_, NegInf) => false
    case (Finite(a), Finite(b)) => a <= b
  }

  datatype Alert = Hidden | Warning | Danger

  function Severity(a: Alert): nat
  {
    match a
    case Hidden => 0
    case Warning => 1
    case Danger => 2
  }

  /** The budget alert of `updateDashboard`: danger at 90 and above, warning from 80 up to 90, hidden otherwise. */
  function BudgetAlert(pct: JsNumber): (a: Alert)
    ensures a == Danger <==> AtLeast(pct, 90.0)
    ensures a == Warning <==> AtLeast(pct, 80.0) && !AtLeast(pct, 90.0)
    ensures a == Hidden <==> !AtLeast(pct, 80.0)
  {
    if AtLeast(pct, 90.0) then Danger
    else if AtLeast(pct, 80.0) then Warning
    else Hidden
  }

  /** The `#budgetAlert` element: its text and the classes of its class list. */
  datatype AlertElement = AlertElement(text: string, classes: set<string>)

  const DangerText: string := "\U{26A0} You have exceeded your budget!"
  const WarningText: string := "\U{26A0} You've spent 80% of your budget!"

  /**
   * What the alert branch of `updateDashboard` does to the element: a visible
   * alert replaces the text, sets `className` to 'alert danger' or 'alert
   * warning' and then removes 'hidden'; a hidden alert only adds 'hidden',
   * leaving the text and the other classes as they were.
   */
  function ShowAlert(a: Alert, el: AlertElement): (after: AlertElement)
    ensures "hidden" in after.classes <==> a == Hidden
    ensures a == Hidden ==> after.text == el.text && after.classes - {"hidden"} == el.classes - {"hidden"}
    ensures a == Danger ==> after.text == DangerText && after.classes == {"alert", "danger"}
    ensures a == Warning ==> after.text == WarningText && after.classes == {"alert", "warning"}
  {
    match a
    case Hidden => el.(classes := el.classes + {"hidden"})
    case Warning => AlertElement(WarningText, {"alert", "warning"} - {"hidden"})
    case Danger => AlertElement(DangerText, {"alert", "danger"} - {"hidden"})
  }

  /**
   * The element shows what the latest update decided: a repeated update
   * changes nothing, and a visible alert erases whatever an earlier update
   * left behind.
   */
  lemma AlertLatestWins(a: Alert, b: Alert, el: AlertElement)
    ensures ShowAlert(a, ShowAlert(a, el)) == ShowAlert(a, el)
    ensures a != Hidden ==> ShowAlert(a, ShowAlert(b, el)) == ShowAlert(a, el)
    ensures a == Hidden ==> ShowAlert(a, ShowAlert(b, el)).text == ShowAlert(b, el).text
  {
    if a == Hidden {
      assert el.classes + {"hidden"} + {"hidden"} == el.classes + {"hidden"};
    }
  }

  /** `Math.min(100, pct)`, the progress-bar width in percent. */
  function ProgressWidth(pct: JsNumber): (w: JsNumber)
    ensures w.NaN? <==> pct.NaN?
    ensures w.Finite? ==> w.r <= 100.0
    ensures pct.Finite? && pct.r <= 100.0 ==> w == pct
    ensures AtLeast(pct, 100.0) ==> w == Finite(100.0)
    ensures pct == NegInf ==> w == NegInf
  {
    match pct
    case NaN => NaN
    case PosInf => Finite(100.0)
    case NegInf => NegInf
    case Finite(r) => if r <= 100.0 then pct else Finite(100.0)
  }

  /**
   * What `updateDashboard` shows of the budget: the bar width, the number in
   * the percentage label (`shown`), the alert it decides on, and the alert
   * element afterwards (`None` when the page has no `#budgetAlert`).
   */
  datatype BudgetView = BudgetView(width: JsNumber, shown: JsNumber, alert: Alert, alertElement: Option<AlertElement>)

  function UpdateDashboard(pct: JsNumber, alertElement: Option<AlertElement>): (v: BudgetView)
    ensures v.shown == pct
    ensures v.width == ProgressWidth(pct)
    ensures v.width.Finite? ==> v.width.r <= 100.0
    ensures LessOrEqual(pct, Finite(100.0)) ==> v.width == pct
    ensures v.alert == Danger <==> AtLeast(pct, 90.0)
    ensures v.alert == Hidden <==> !AtLeast(pct, 80.0)
    ensures v.alertElement.Some? <==> alertElement.Some?
    ensures alertElement.Some? ==> v.alertElement == Some(ShowAlert(BudgetAlert(pct), alertElement.value))
    ensures v.alertElement.Some? ==> ("hidden" in v.alertElement.value.classes <==> !AtLeast(pct, 80.0))
    ensures v.alertElement.Some? && AtLeast(pct, 90.0) ==> v.alertElement.value.text == DangerText
    ensures v.alertElement.Some? && !AtLeast(pct, 80.0) ==> v.alertElement.value.text == alertElement.value.text
  {
    var alert := BudgetAlert(pct);
    BudgetView(ProgressWidth(pct), pct, alert, if alertElement.Some? then Some(ShowAlert(alert, alertElement.value)) else None)
  }

  /** A larger percentage never gives a milder alert. */
  lemma AlertMonotone(p: JsNumber, q: JsNumber)
    requires LessOrEqual(p, q)
    ensures Severity(BudgetAlert(p)) <= Severity(BudgetAlert(q))
  {
  }

  /** The thresholds at their edges. */
  lemma AlertBoundaries()
    ensures BudgetAlert(Finite(79.99)) == Hidden
    ensures BudgetAlert(Finite(80.0)) == Warning
    ensures BudgetAlert(Finite(89.99)) == Warning
    ensures BudgetAlert(Finite(90.0)) == Danger
    ensures BudgetAlert(Finite(95.0)) == Danger
    ensures BudgetAlert(NaN) == Hidden
  {
  }

  /**
   * The bar is clamped, the label is not: over budget the bar stops at 100
   * while the label keeps the real percentage and the alert is danger.
   */
  lemma OverBudgetView(r: real, el: AlertElement)
    requires r > 100.0
    ensures UpdateDashboard(Finite(r), Some(el)).width == Finite(100.0)
    ensures UpdateDashboard(Finite(r), Some(el)).shown == Finite(r) != UpdateDashboard(Finite(r), Some(el)).width
    ensures UpdateDashboard(Finite(r), Some(el)).alert == Danger
    ensures UpdateDashboard(Finite(r), Some(el)).alertElement == Some(AlertElement(DangerText, {"alert", "danger"}))
  {
  }

  /** Up to 100 the bar and the label show the same number. */
  lemma WithinBudgetView(r: real, el: Option<AlertElement>)
    requires r <= 100.0
    ensures UpdateDashboard(Finite(r), el).width == UpdateDashboard(Finite(r), el).shown == Finite(r)
  {
  }

  /** The body `saveBudget` sends to the settings endpoint: `{ monthly_budget: value }` and nothing else. */
  datatype BudgetBody = BudgetBody(monthlyBudget: JsNumber)

  /** JavaScript falsiness of a number: NaN and zero. */
  predicate Falsy(x: JsNumber)
  {
    x.NaN? || x == Finite(0.0)
  }

  /**
   * `saveBudget` on the value `parseFloat` returned: None when it stops at
   * `!budgetValue || budgetValue <= 0` and makes no settings call, otherwise
   * the body of that call.
   */
  function SaveBudget(budgetValue: JsNumber): (body: Option<BudgetBody>)
    ensures body.Some? <==> budgetValue == PosInf || (budgetValue.Finite? && budgetValue.r > 0.0)
    ensures body.Some? ==> body.value.monthlyBudget == budgetValue
  {
    if Falsy(budgetValue) || LessOrEqual(budgetValue, Finite(0.0)) then None
    else Some(BudgetBody(budgetValue))
  }

  /** `JSON.stringify` of a number: finite values as themselves, NaN and the infinities as `null` (None). */
  function JsonNumber(x: JsNumber): (j: Option<real>)
    ensures j.Some? <==> x.Finite?
    ensures x.Finite? ==> j.value == x.r
  {
    if x.Finite? then Some(x.r) else None
  }

  /**
   * As written, an input that `parseFloat` reads as +Infinity (such as
   * "1e400") passes the check, and the request body then carries
   * `"monthly_budget": null`.
   */
  lemma InfiniteBudgetSentAsNull()
    ensures SaveBudget(PosInf) == Some(BudgetBody(PosInf))
    ensures JsonNumber(SaveBudget(PosInf).value.monthlyBudget).None?
  {
  }

  /** The check as evidently intended: only a finite positive budget is sent. */
  function SaveFiniteBudget(budgetValue: JsNumber): (body: Option<BudgetBody>)
    ensures body.Some? <==> budgetValue.Finite? && budgetValue.r > 0.0
    ensures body.Some? ==> body.value.monthlyBudget == budgetValue
    ensures body.Some? ==> JsonNumber(body.value.monthlyBudget) == Some(budgetValue.r)
  {
    if !budgetValue.Finite? then None else SaveBudget(budgetValue)
  }

  /** On every finite input the corrected check agrees with the code as written. */
  lemma SaveFiniteBudgetAgrees(r: real)
    ensures SaveFiniteBudget(Finite(r)) == SaveBudget(Finite(r))
  {
  }

  /** `link.getAttribute('href').substring(1)`: the href without its first character (`''` stays `''`). */
  function NavTarget(href: string): (target: string)
    ensures href != [] ==> [href[0]] + target == href
    ensures href == [] ==> target == []
  {
    if href == [] then [] else href[1..]
  }

  /** A sidebar link `#section` targets the section `section`. */
  lemma NavTargetOfFragment(section: string)
    ensures NavTarget("#" + section) == section
  {
  }
}

=== FILE: database.dfy ===
/**
 * The users and categories tables of database/database.js: their columns,
 * column defaults and UNIQUE constraints, and the one-time seeding of the
 * global category template (rows whose owner is NULL).
 */
module Database {
  import opened Common

  /** The three settings columns of a users row; each is nullable. */
  datatype Settings = Settings(monthlyBudget: Option<real>, currency: Option<string>, theme: Option<string>)

  /** A row of the users table; `password` holds the bcrypt hash. */
  datatype User = User(id: nat, name: string, email: string, password: string, settings: Settings)

  /** A row of the categories table; `owner` None is SQL NULL, a row of the global template. */
  datatype Category = Category(id: nat, owner: Option<nat>, name: string, color: string, icon: string)

  /** The (name, color, icon) part of a category: what is seeded and what is copied. */
  datatype Style = Style(name: string, color: string, icon: string)

  const DefaultBudget: real := 10000.0
  /** The currency DEFAULT exactly as the schema text spells it (a mis-decoded rupee sign). */
  const DefaultCurrency: string := "\U{00E2}\U{201A}\U{00B9}"
  const DefaultTheme: string := "light"

  /** What the column DEFAULTs give a users row inserted with name, email and password only. */
  const DefaultSettings: Settings := Settings(Some(DefaultBudget), Some(DefaultCurrency), Some(DefaultTheme))

  /** The eight template categories, in the order they are inserted. */
  const DefaultCategories: seq<Style> := [
    Style("Food", "#ef4444", "utensils"),
    Style("Travel", "#3b82f6", "car"),
    Style("Shopping", "#8b5cf6", "shopping-bag"),
    Style("Entertainment", "#f59e0b", "film"),
    Style("Bills", "#10b981", "file-invoice"),
    Style("Healthcare", "#06b6d4", "heartbeat"),
    Style("Education", "#ec4899", "book"),
    Style("Other", "#64748b", "circle")
  ]

  function StyleOf(c: Category): Style
  {
    Style(c.name, c.color, c.icon)
  }

  /** The rows that inserting `styles` one after another for `owner` appends, ids counting up from `firstId`. */
  function Rows(styles: seq<Style>, owner: Option<nat>, firstId: nat): seq<Category>
  {
    seq(|styles|, i requires 0 <= i < |styles| => Category(firstId + i, owner, styles[i].name, styles[i].color, styles[i].icon))
  }

  /** `SELECT name, color, icon FROM categories WHERE user_id IS <owner>`, in table order. */
  function StylesOf(cats: seq<Category>, owner: Option<nat>): seq<Style>
  {
    if cats == [] then []
    else (if cats[0].owner == owner then [StyleOf(cats[0])] else []) + StylesOf(cats[1..], owner)
  }

  /** The global template: the styles of the rows whose owner is NULL. */
  function Template(cats: seq<Category>): seq<Style>
  {
    StylesOf(cats, None)
  }

  ghost predicate DistinctNames(styles: seq<Style>)
  {
    forall i, j :: 0 <= i < j < |styles| ==> styles[i].name != styles[j].name
  }

  /** `email TEXT UNIQUE`. */
  ghost predicate UniqueEmails(users: seq<User>)
  {
    forall i, j :: 0 <= i < j < |users| ==> users[i].email != users[j].email
  }

  /** `UNIQUE(user_id, name)` on categories. */
  ghost predicate UniqueOwnerNames(cats: seq<Category>)
  {
    forall i, j :: 0 <= i < j < |cats| ==> cats[i].owner != cats[j].owner || cats[i].name != cats[j].name
  }

  ghost predicate UserIdsIncreasing(users: seq<User>)
  {
    forall i, j :: 0 <= i < j < |users| ==> users[i].id < users[j].id
  }

  ghost predicate CategoryIdsIncreasing(cats: seq<Category>)
  {
    forall i, j :: 0 <= i < j < |cats| ==> cats[i].id < cats[j].id
  }

  // ---------------------------------------------------------------------------
  // Properties of the template and of row copies.

  /** The eight default names are pairwise distinct. */
  lemma DefaultNamesDistinct()
    ensures |DefaultCategories| == 8
    ensures DistinctNames(DefaultCategories)
  {
  }

  lemma {:induction false} StylesOfAppend(a: seq<Category>, b: seq<Category>, owner: Option<nat>)
    ensures StylesOf(a + b, owner) == StylesOf(a, owner) + StylesOf(b, owner)
  {
    if a == [] {
      assert a + b == b;
    } else {
      var head := if a[0].owner == owner then [StyleOf(a[0])] else [];
      assert (a + b)[0] == a[0] && (a + b)[1..] == a[1..] + b;
      StylesOfAppend(a[1..], b, owner);
      calc {
        StylesOf(a + b, owner);
        head + StylesOf(a[1..] + b, owner);
        head + (StylesOf(a[1..], owner) + StylesOf(b, owner));
        (head + StylesOf(a[1..], owner)) + StylesOf(b, owner);
      }
    }
  }

  /** Rows inserted for `owner` give back, for that owner, exactly the styles inserted, and nothing to anyone else. */
  lemma {:induction false} StylesOfRows(styles: seq<Style>, owner: Option<nat>, firstId: nat, other: Option<nat>)
    ensures StylesOf(Rows(styles, owner, firstId), other) == if other == owner then styles else []
  {
    var rows := Rows(styles, owner, firstId);
    if styles != [] {
      assert rows[1..] == Rows(styles[1..], owner, firstId + 1);
      StylesOfRows(styles[1..], owner, firstId + 1, other);
      assert StyleOf(rows[0]) == styles[0];
      assert styles == [styles[0]] + styles[1..];
    }
  }

  /** Every style listed for an owner comes from a row of that owner. */
  lemma {:induction false} StylesOfFrom(cats: seq<Category>, owner: Option<nat>, k: nat)
    requires k < |StylesOf(cats, owner)|
    ensures exists i :: 0 <= i < |cats| && cats[i].owner == owner && StyleOf(cats[i]) == StylesOf(cats, owner)[k]
  {
    var rest := StylesOf(cats[1..], owner);
    if cats[0].owner == owner && k == 0 {
      assert cats[0].owner == owner && StyleOf(cats[0]) == StylesOf(cats, owner)[0];
    } else {
      var k' := if cats[0].owner == owner then k - 1 else k;
      assert StylesOf(cats, owner)[k] == rest[k'];
      StylesOfFrom(cats[1..], owner, k');
      var i :| 0 <= i < |cats[1..]| && cats[1..][i].owner == owner && StyleOf(cats[1..][i]) == rest[k'];
      assert cats[i + 1] == cats[1..][i];
    }
  }

  /** Under `UNIQUE(user_id, name)` the names listed for one owner are distinct. */
  lemma {:induction false} StylesOfDistinct(cats: seq<Category>, owner: Option<nat>)
    requires UniqueOwnerNames(cats)
    ensures DistinctNames(StylesOf(cats, owner))
  {
    if cats != [] {
      var tail := cats[1..];
      assert UniqueOwnerNames(tail);
      StylesOfDistinct(tail, owner);
      if cats[0].owner == owner {
        var s := StylesOf(cats, owner);
        var rest := StylesOf(tail, owner);
        assert s == [StyleOf(cats[0])] + rest;
        forall i, j | 0 <= i < j < |s|
          ensures s[i].name != s[j].name
        {
          if i == 0 {
            StylesOfFrom(tail, owner, j - 1);
            var k :| 0 <= k < |tail| && tail[k].owner == owner && StyleOf(tail[k]) == rest[j - 1];
            assert cats[k + 1] == tail[k];
          } else {
            assert s[i] == rest[i - 1] && s[j] == rest[j - 1];
          }
        }
      }
    }
  }

  /**
   * The copies are values, not references: editing the template rows in
   * place (any new name, colour or icon) changes the template and leaves
   * every user's own categories exactly as they were.
   */
  lemma {:induction false} TemplateEditsDoNotReachCopies(cats: seq<Category>, edit: Style -> Style, u: nat)
    ensures StylesOf(EditTemplate(cats, edit), Some(u)) == StylesOf(cats, Some(u))
    ensures |Template(EditTemplate(cats, edit))| == |Template(cats)|
    ensures forall k :: 0 <= k < |Template(cats)| ==> Template(EditTemplate(cats, edit))[k] == edit(Template(cats)[k])
  {
    if cats != [] {
      var e := EditTemplate(cats, edit);
      assert e[1..] == EditTemplate(cats[1..], edit);
      assert e[0].owner == cats[0].owner;
      TemplateEditsDoNotReachCopies(cats[1..], edit, u);
    }
  }

  /** Every template row rewritten by `edit`; all owned rows untouched. */
  function EditTemplate(cats: seq<Category>, edit: Style -> Style): seq<Category>
  {
    seq(|cats|, i requires 0 <= i < |cats| =>
      if cats[i].owner.None? then
        var s := edit(StyleOf(cats[i])); cats[i].(name := s.name, color := s.color, icon := s.icon)
      else cats[i])
  }

  /** Inserted rows carry consecutive ids from `firstId` and the owner they were inserted for. */
  lemma RowsKeepIds(styles: seq<Style>, owner: Option<nat>, firstId: nat)
    ensures CategoryIdsIncreasing(Rows(styles, owner, firstId))
    ensures forall i :: 0 <= i < |styles| ==> Rows(styles, owner, firstId)[i].id < firstId + |styles|
    ensures forall i :: 0 <= i < |styles| ==> Rows(styles, owner, firstId)[i].owner == owner
  {
  }

  /** Inserting one more style appends one row with the next id. */
  lemma RowsSnoc(styles: seq<Style>, s: Style, owner: Option<nat>, firstId: nat)
    ensures Rows(styles + [s], owner, firstId) == Rows(styles, owner, firstId) + [Category(firstId + |styles|, owner, s.name, s.color, s.icon)]
  {
  }

  /** Appending rows with distinct names for an owner who has none keeps `UNIQUE(user_id, name)`. */
  lemma AppendRowsKeepsUnique(cats: seq<Category>, styles: seq<Style>, owner: Option<nat>, firstId: nat)
    requires UniqueOwnerNames(cats)
    requires DistinctNames(styles)
    requires forall c :: c in cats ==> c.owner != owner
    ensures UniqueOwnerNames(cats + Rows(styles, owner, firstId))
  {
    var all := cats + Rows(styles, owner, firstId);
    forall i, j | 0 <= i < j < |all|
      ensures all[i].owner != all[j].owner || all[i].name != all[j].name
    {
      if j >= |cats| && i < |cats| {
        assert all[i] in cats;
      }
    }
  }

  // ---------------------------------------------------------------------------
  // The database as one shared object.

  class Db {
    var users: seq<User>
    var categories: seq<Category>
    /** The id the next users INSERT receives (AUTOINCREMENT). */
    var nextUserId: nat
    /** The id the next categories INSERT receives (AUTOINCREMENT). */
    var nextCategoryId: nat

    /** The schema's constraints, plus: every category owner is the id of a user already created. */
    ghost predicate Valid()
      reads this
    {
      && UserIdsIncreasing(users)
      && (forall i :: 0 <= i < |users| ==> users[i].id < nextUserId)
      && UniqueEmails(users)
      && CategoryIdsIncreasing(categories)
      && (forall i :: 0 <= i < |categories| ==> categories[i].id < nextCategoryId)
      && UniqueOwnerNames(categories)
      && (forall i :: 0 <= i < |categories| && categories[i].owner.Some? ==> categories[i].owner.value < nextUserId)
    }

    /** A database file opened for the first time: both tables exist and are empty. */
    constructor ()
      ensures Valid() && users == [] && categories == []
      ensures nextUserId == 1 && nextCategoryId == 1
    {
      users, categories := [], [];
      nextUserId, nextCategoryId := 1, 1;
    }

    /**
     * `initializeDatabase`: when the categories table has no rows, inserts the
     * eight defaults with a NULL owner, one INSERT per category in listed
     * order; otherwise inserts nothing. The users table is not touched.
     */
    method InitializeDatabase()
      requires Valid()
      modifies this
      ensures Valid()
      ensures users == old(users) && nextUserId == old(nextUserId)
      ensures old(categories) == [] ==> categories == Rows(DefaultCategories, None, old(nextCategoryId))
      ensures old(categories) == [] ==> Template(categories) == DefaultCategories
      ensures old(categories) == [] ==> nextCategoryId == old(nextCategoryId) + |DefaultCategories|
      ensures old(categories) != [] ==> categories == old(categories) && nextCategoryId == old(nextCategoryId)
    {
      if |categories| == 0 {
        var firstId := nextCategoryId;
        InsertTemplateRows(DefaultCategories);
        assert categories == Rows(DefaultCategories, None, firstId);
        SeededTable(firstId);
        RowsKeepIds(DefaultCategories, None, firstId);
      }
    }

    /** The prepared `INSERT ... VALUES (NULL, ?, ?, ?)` run once per style, in order. */
    method InsertTemplateRows(styles: seq<Style>)
      modifies this
      ensures categories == old(categories) + Rows(styles, None, old(nextCategoryId))
      ensures nextCategoryId == old(nextCategoryId) + |styles|
      ensures users == old(users) && nextUserId == old(nextUserId)
    {
      var i := 0;
      while i < |styles|
        invariant 0 <= i <= |styles|
        invariant categories == old(categories) + Rows(styles[..i], None, old(nextCategoryId))
        invariant nextCategoryId == old(nextCategoryId) + i
        invariant users == old(users) && nextUserId == old(nextUserId)
      {
        var s := styles[i];
        assert styles[..i + 1] == styles[..i] + [s];
        RowsSnoc(styles[..i], s, None, old(nextCategoryId));
        categories := categories + [Category(nextCategoryId, None, s.name, s.color, s.icon)];
        nextCategoryId := nextCategoryId + 1;
        i := i + 1;
      }
      assert styles[..i] == styles;
    }
  }

  /** The seeded table satisfies the schema and holds exactly the default template. */
  lemma SeededTable(firstId: nat)
    ensures UniqueOwnerNames(Rows(DefaultCategories, None, firstId))
    ensures Template(Rows(DefaultCategories, None, firstId)) == DefaultCategories
  {
    DefaultNamesDistinct();
    AppendRowsKeepsUnique([], DefaultCategories, None, firstId);
    assert [] + Rows(DefaultCategories, None, firstId) == Rows(DefaultCategories, None, firstId);
    StylesOfRows(DefaultCategories, None, firstId, None);
  }
}

=== FILE: expense.dfy ===
/**
 * The owner-scoped expense store of models/Expense.js: an in-memory table of
 * rows keyed by id, every row carrying the id of the user who owns it. Each
 * SQL statement of the source is one atomic assignment to the table.
 */
module ExpenseModel {
  import opened Common

  /** One row of the expenses table, as models/Expense.js writes and reads it. */
  datatype Expense = Expense(id: nat, userId: int, amount: real, category: string, note: string, date: string)

  /** The object `createExpense` hands back; it echoes the caller's `note` and `date` arguments. */
  datatype Created = Created(id: nat, userId: int, amount: real, category: string, note: Option<string>, date: Option<string>)

  /** The `fields` argument of `updateExpense`; `None` is a property left `undefined`. */
  datatype ExpensePatch = ExpensePatch(amount: Option<real>, category: Option<string>, note: Option<string>, date: Option<string>)

  /** The WHERE clause `id = ? AND user_id = ?` shared by lookup, update and delete. */
  predicate Matches(e: Expense, id: int, userId: int)
  {
    e.id == id && e.userId == userId
  }

  /** Row ids grow with insertion order (SQLite AUTOINCREMENT), so they are pairwise distinct. */
  ghost predicate IdsIncreasing(rows: seq<Expense>)
  {
    forall i, j :: 0 <= i < j < |rows| ==> rows[i].id < rows[j].id
  }

  // ---------------------------------------------------------------------------
  // Text order used by `ORDER BY date`: SQLite's BINARY collation compares the
  // UTF-8 bytes, which orders strings as their code points do.

  predicate TextLe(a: string, b: string)
  {
    a == [] || (b != [] && (a[0] < b[0] || (a[0] == b[0] && TextLe(a[1..], b[1..]))))
  }

  lemma TextLeTotal(a: string, b: string)
    ensures TextLe(a, b) || TextLe(b, a)
  {
    if a != [] && b != [] && a[0] == b[0] {
      TextLeTotal(a[1..], b[1..]);
    }
  }

  /** Each row's date is greater than or equal to the next row's date. */
  predicate SortedByDateDesc(s: seq<Expense>)
  {
    forall i :: 0 < i < |s| ==> TextLe(s[i].date, s[i - 1].date)
  }

  function InsertByDate(x: Expense, s: seq<Expense>): (r: seq<Expense>)
    requires SortedByDateDesc(s)
    ensures SortedByDateDesc(r)
    ensures multiset(r) == multiset(s) + multiset{x}
    ensures r[0] == x || (s != [] && r[0] == s[0])
  {
    if s == [] || TextLe(s[0].date, x.date) then
      [x] + s
    else
      TextLeTotal(s[0].date, x.date);
      assert s == [s[0]] + s[1..];
      [s[0]] + InsertByDate(x, s[1..])
  }

  /** The order `ORDER BY date DESC` puts rows in. */
  function SortByDateDesc(s: seq<Expense>): (r: seq<Expense>)
    ensures SortedByDateDesc(r)
    ensures multiset(r) == multiset(s)
  {
    if s == [] then []
    else
      assert s == [s[0]] + s[1..];
      InsertByDate(s[0], SortByDateDesc(s[1..]))
  }

  // ---------------------------------------------------------------------------
  // The statements of models/Expense.js as functions of the table.

  /** `WHERE user_id = ?`: the rows owned by `userId`, with their multiplicities, in table order. */
  function OwnedBy(rows: seq<Expense>, userId: int): seq<Expense>
  {
    if rows == [] then []
    else (if rows[0].userId == userId then [rows[0]] else []) + OwnedBy(rows[1..], userId)
  }

  /** `SELECT * FROM expenses WHERE user_id = ? ORDER BY date DESC`. */
  function Listing(rows: seq<Expense>, userId: int): (r: seq<Expense>)
    ensures SortedByDateDesc(r)
    ensures forall e :: multiset(r)[e] == if e.userId == userId then multiset(rows)[e] else 0
  {
    OwnedByCounts(rows, userId);
    SortByDateDesc(OwnedBy(rows, userId))
  }

  /** `SELECT * FROM expenses WHERE id = ? AND user_id = ?` with `.get`: the first matching row, if any. */
  function Lookup(rows: seq<Expense>, id: int, userId: int): (r: Option<Expense>)
    ensures r.Some? ==> r.value in rows && Matches(r.value, id, userId)
    ensures r.None? ==> forall e :: e in rows ==> !Matches(e, id, userId)
  {
    if rows == [] then None
    else if Matches(rows[0], id, userId) then Some(rows[0])
    else Lookup(rows[1..], id, userId)
  }

  /** Field by field: the supplied value when it is defined, otherwise the existing one. */
  function Pick<T>(supplied: Option<T>, existing: T): T
  {
    if supplied.Some? then supplied.value else existing
  }

  /** The patch merge of `updateExpense`; id and owner are never touched. */
  function Merge(existing: Expense, fields: ExpensePatch): (r: Expense)
    ensures r.id == existing.id && r.userId == existing.userId
  {
    existing.(amount := Pick(fields.amount, existing.amount),
              category := Pick(fields.category, existing.category),
              note := Pick(fields.note, existing.note),
              date := Pick(fields.date, existing.date))
  }

  /** One row after `SET amount = ?, category = ?, note = ?, date = ?` with the values of `v`. */
  function Assign(e: Expense, v: Expense): Expense
  {
    e.(amount := v.amount, category := v.category, note := v.note, date := v.date)
  }

  /** `UPDATE expenses SET ... WHERE id = ? AND user_id = ?`: every matching row takes v's four values. */
  function SetWhere(rows: seq<Expense>, id: int, userId: int, v: Expense): (r: seq<Expense>)
    ensures |r| == |rows|
    ensures forall i :: 0 <= i < |rows| ==> r[i] == if Matches(rows[i], id, userId) then Assign(rows[i], v) else rows[i]
  {
    if rows == [] then []
    else [if Matches(rows[0], id, userId) then Assign(rows[0], v) else rows[0]] + SetWhere(rows[1..], id, userId, v)
  }

  /** `DELETE FROM expenses WHERE id = ? AND user_id = ?`: the matching rows go, the rest keep their order. */
  function RemoveWhere(rows: seq<Expense>, id: int, userId: int): (r: seq<Expense>)
    ensures |r| <= |rows|
    ensures |r| < |rows| <==> Lookup(rows, id, userId).Some?
  {
    if rows == [] then []
    else (if Matches(rows[0], id, userId) then [] else [rows[0]]) + RemoveWhere(rows[1..], id, userId)
  }

  // ---------------------------------------------------------------------------
  // Properties of the store.

  /** The patch rule, field by field: a defined field wins, an undefined one keeps the old value. */
  lemma MergeIsPatch(existing: Expense, fields: ExpensePatch)
    ensures var r := Merge(existing, fields);
      && r.amount == (if fields.amount.Some? then fields.amount.value else existing.amount)
      && r.category == (if fields.category.Some? then fields.category.value else existing.category)
      && r.note == (if fields.note.Some? then fields.note.value else existing.note)
      && r.date == (if fields.date.Some? then fields.date.value else existing.date)
  {
  }

  /** A patch that defines nothing changes nothing, and applying the same patch twice is applying it once. */
  lemma MergeEmptyAndIdempotent(existing: Expense, fields: ExpensePatch)
    ensures Merge(existing, ExpensePatch(None, None, None, None)) == existing
    ensures Merge(Merge(existing, fields), fields) == Merge(existing, fields)
  {
  }

  /** `WHERE user_id = ?` keeps exactly the owner's rows, each as often as the table holds it. */
  lemma {:induction false} OwnedByCounts(rows: seq<Expense>, userId: int)
    ensures forall e :: multiset(OwnedBy(rows, userId))[e] == if e.userId == userId then multiset(rows)[e] else 0
  {
    if rows != [] {
      OwnedByCounts(rows[1..], userId);
      assert rows == [rows[0]] + rows[1..];
    }
  }

  /** A delete removes every row matching (id, owner) and keeps every other row as often as it was there. */
  lemma {:induction false} RemoveWhereCounts(rows: seq<Expense>, id: int, userId: int)
    ensures forall e :: multiset(RemoveWhere(rows, id, userId))[e] == if Matches(e, id, userId) then 0 else multiset(rows)[e]
  {
    if rows != [] {
      RemoveWhereCounts(rows[1..], id, userId);
      assert rows == [rows[0]] + rows[1..];
    }
  }

  lemma {:induction false} OwnedByAppend(a: seq<Expense>, b: seq<Expense>, userId: int)
    ensures OwnedBy(a + b, userId) == OwnedBy(a, userId) + OwnedBy(b, userId)
  {
    if a != [] {
      var head := if a[0].userId == userId then [a[0]] else [];
      assert (a + b)[0] == a[0];
      assert (a + b)[1..] == a[1..] + b;
      OwnedByAppend(a[1..], b, userId);
      calc {
        OwnedBy(a + b, userId);
        head + OwnedBy(a[1..] + b, userId);
        head + (OwnedBy(a[1..], userId) + OwnedBy(b, userId));
        (head + OwnedBy(a[1..], userId)) + OwnedBy(b, userId);
        OwnedBy(a, userId) + OwnedBy(b, userId);
      }
    } else {
      assert a + b == b;
    }
  }

  /** A lookup by (id, owner) sees only the owner's rows: the rest of the table cannot influence it. */
  lemma {:induction false} LookupSeesOnlyOwnRows(rows: seq<Expense>, id: int, userId: int)
    ensures Lookup(OwnedBy(rows, userId), id, userId) == Lookup(rows, id, userId)
  {
    if rows != [] {
      LookupSeesOnlyOwnRows(rows[1..], id, userId);
      var rest := OwnedBy(rows[1..], userId);
      if rows[0].userId == userId {
        var own := [rows[0]] + rest;
        assert OwnedBy(rows, userId) == own;
        assert own[0] == rows[0] && own[1..] == rest;
      } else {
        assert OwnedBy(rows, userId) == [] + rest == rest;
      }
    }
  }

  /**
   * No information leak: two tables holding the same rows for `userId` give
   * `userId` the same answer to every lookup and to the listing. A row of
   * another owner, whatever its id, is indistinguishable from a missing id.
   */
  lemma ForeignRowsUnobservable(t1: seq<Expense>, t2: seq<Expense>, id: int, userId: int)
    requires OwnedBy(t1, userId) == OwnedBy(t2, userId)
    ensures Lookup(t1, id, userId) == Lookup(t2, id, userId)
    ensures Listing(t1, userId) == Listing(t2, userId)
  {
    LookupSeesOnlyOwnRows(t1, id, userId);
    LookupSeesOnlyOwnRows(t2, id, userId);
  }

  /** A row whose owner is someone else answers a lookup exactly as if it were absent. */
  lemma ForeignRowIsMissing(rows: seq<Expense>, e: Expense, id: int, userId: int)
    requires e.userId != userId
    ensures Lookup(rows + [e], id, userId) == Lookup(rows, id, userId)
  {
    OwnedByAppend(rows, [e], userId);
    assert OwnedBy([e], userId) == [];
    assert rows + [] == rows;
    ForeignRowsUnobservable(rows + [e], rows, id, userId);
  }

  /** An update by (id, owner) leaves every other owner's rows exactly as they were. */
  lemma {:induction false} SetWhereKeepsOtherOwners(rows: seq<Expense>, id: int, userId: int, v: Expense, other: int)
    requires other != userId
    ensures OwnedBy(SetWhere(rows, id, userId, v), other) == OwnedBy(rows, other)
  {
    if rows != [] {
      var r := SetWhere(rows, id, userId, v);
      assert r[1..] == SetWhere(rows[1..], id, userId, v);
      SetWhereKeepsOtherOwners(rows[1..], id, userId, v, other);
    }
  }

  /** A delete by (id, owner) leaves every other owner's rows exactly as they were. */
  lemma {:induction false} RemoveWhereKeepsOtherOwners(rows: seq<Expense>, id: int, userId: int, other: int)
    requires other != userId
    ensures OwnedBy(RemoveWhere(rows, id, userId), other) == OwnedBy(rows, other)
  {
    if rows != [] {
      var rest := RemoveWhere(rows[1..], id, userId);
      RemoveWhereKeepsOtherOwners(rows[1..], id, userId, other);
      if Matches(rows[0], id, userId) {
        assert RemoveWhere(rows, id, userId) == rest;
      } else {
        assert RemoveWhere(rows, id, userId) == [rows[0]] + rest;
        OwnedByAppend([rows[0]], rest, other);
        OwnedByAppend([rows[0]], rows[1..], other);
        assert rows == [rows[0]] + rows[1..];
      }
    }
  }

  /** After the UPDATE, a lookup of the same (id, owner) finds the merged row. */
  lemma {:induction false} LookupAfterSet(rows: seq<Expense>, id: int, userId: int, v: Expense)
    requires Lookup(rows, id, userId).Some?
    requires v.id == id && v.userId == userId
    ensures Lookup(SetWhere(rows, id, userId, v), id, userId) == Some(v)
  {
    var r := SetWhere(rows, id, userId, v);
    if !Matches(rows[0], id, userId) {
      assert r[1..] == SetWhere(rows[1..], id, userId, v);
      LookupAfterSet(rows[1..], id, userId, v);
    }
  }

  /** A row whose id is above every id in the table is found by its own (id, owner) once appended. */
  lemma {:induction false} LookupFresh(rows: seq<Expense>, row: Expense)
    requires forall e :: e in rows ==> e.id < row.id
    ensures Lookup(rows + [row], row.id, row.userId) == Some(row)
  {
    if rows == [] {
      assert rows + [row] == [row];
    } else {
      assert (rows + [row])[0] == rows[0];
      assert (rows + [row])[1..] == rows[1..] + [row];
      assert rows[0] in rows;
      assert forall e :: e in rows[1..] ==> e in rows;
      LookupFresh(rows[1..], row);
    }
  }

  /** A delete that matches nothing leaves the table as it was. */
  lemma {:induction false} RemoveNothing(rows: seq<Expense>, id: int, userId: int)
    requires Lookup(rows, id, userId).None?
    ensures RemoveWhere(rows, id, userId) == rows
  {
    if rows != [] {
      assert Lookup(rows[1..], id, userId).None?;
      RemoveNothing(rows[1..], id, userId);
      assert rows == [rows[0]] + rows[1..];
    }
  }

  /** An update rewrites values, never ids, so the table's ids stay increasing and below `nextId`. */
  lemma SetWhereKeepsIds(rows: seq<Expense>, id: int, userId: int, v: Expense, nextId: nat)
    requires IdsIncreasing(rows) && forall i :: 0 <= i < |rows| ==> rows[i].id < nextId
    ensures var after := SetWhere(rows, id, userId, v);
      IdsIncreasing(after) && forall i :: 0 <= i < |after| ==> after[i].id < nextId
  {
    var after := SetWhere(rows, id, userId, v);
    assert forall i :: 0 <= i < |after| ==> after[i].id == rows[i].id;
  }

  /** Row `k` of a table with increasing ids is the only row carrying its id. */
  lemma IdIsKey(rows: seq<Expense>, e: Expense, k: nat)
    requires IdsIncreasing(rows)
    requires k < |rows| && e in rows && e.id == rows[k].id
    ensures e == rows[k]
  {
    var i :| 0 <= i < |rows| && rows[i] == e;
    assert i == k;
  }

  /** With distinct ids at most one row matches (id, owner), so a delete that finds one removes one. */
  lemma {:induction false} RemovesOneRow(rows: seq<Expense>, id: int, userId: int)
    requires IdsIncreasing(rows)
    requires Lookup(rows, id, userId).Some?
    ensures |RemoveWhere(rows, id, userId)| == |rows| - 1
  {
    var tail := rows[1..];
    if Matches(rows[0], id, userId) {
      forall e | e in tail
        ensures !Matches(e, id, userId)
      {
        var k :| 0 <= k < |tail| && tail[k] == e;
        assert rows[k + 1] == e;
      }
      assert RemoveWhere(rows, id, userId) == [] + RemoveWhere(tail, id, userId);
    } else {
      assert IdsIncreasing(tail);
      RemovesOneRow(tail, id, userId);
      assert RemoveWhere(rows, id, userId) == [rows[0]] + RemoveWhere(tail, id, userId);
    }
  }

  /** With distinct ids a delete removes exactly one row, the one a lookup finds. */
  lemma RemovesExactlyTheRow(rows: seq<Expense>, id: int, userId: int)
    requires IdsIncreasing(rows)
    requires Lookup(rows, id, userId).Some?
    ensures |RemoveWhere(rows, id, userId)| == |rows| - 1
    ensures forall e :: e in RemoveWhere(rows, id, userId) <==> e in rows && e != Lookup(rows, id, userId).value
  {
    RemovesOneRow(rows, id, userId);
    var x := Lookup(rows, id, userId).value;
    var r := RemoveWhere(rows, id, userId);
    var k :| 0 <= k < |rows| && rows[k] == x;
    RemoveWhereCounts(rows, id, userId);
    forall e
      ensures e in r <==> e in rows && e != x
    {
      assert e in r <==> multiset(r)[e] > 0;
      assert e in rows <==> multiset(rows)[e] > 0;
      if e in rows && Matches(e, id, userId) {
        IdIsKey(rows, e, k);
      }
    }
  }

  /** Deleting twice is deleting once. */
  lemma {:induction false} RemoveWhereIdempotent(rows: seq<Expense>, id: int, userId: int)
    ensures RemoveWhere(RemoveWhere(rows, id, userId), id, userId) == RemoveWhere(rows, id, userId)
  {
    if rows != [] {
      RemoveWhereIdempotent(rows[1..], id, userId);
      var rest := RemoveWhere(rows[1..], id, userId);
      if Matches(rows[0], id, userId) {
        assert RemoveWhere(rows, id, userId) == [] + rest == rest;
      } else {
        var r := [rows[0]] + rest;
        assert RemoveWhere(rows, id, userId) == r;
        assert r[0] == rows[0] && r[1..] == rest;
      }
    }
  }

  /** A row whose id is below every id of an increasing table can go in front of it. */
  lemma PrependIncreasing(x: Expense, rest: seq<Expense>)
    requires IdsIncreasing(rest)
    requires forall e :: e in rest ==> x.id < e.id
    ensures IdsIncreasing([x] + rest)
  {
    var r := [x] + rest;
    forall i, j | 0 <= i < j < |r|
      ensures r[i].id < r[j].id
    {
      assert r[j] == rest[j - 1];
      if i > 0 {
        assert r[i] == rest[i - 1];
      }
    }
  }

  /** Deleting keeps the surviving rows in their order, so ids stay increasing. */
  lemma {:induction false} RemoveWhereKeepsSubsequence(rows: seq<Expense>, id: int, userId: int)
    requires IdsIncreasing(rows)
    ensures IdsIncreasing(RemoveWhere(rows, id, userId))
    ensures forall e :: e in RemoveWhere(rows, id, userId) ==> e in rows
  {
    if rows != [] {
      var tail := rows[1..];
      assert IdsIncreasing(tail);
      RemoveWhereKeepsSubsequence(tail, id, userId);
      var rest := RemoveWhere(tail, id, userId);
      if Matches(rows[0], id, userId) {
        assert RemoveWhere(rows, id, userId) == [] + rest == rest;
      } else {
        forall e | e in rest
          ensures rows[0].id < e.id
        {
          var k :| 0 <= k < |tail| && tail[k] == e;
          assert rows[k + 1] == e;
        }
        PrependIncreasing(rows[0], rest);
        assert RemoveWhere(rows, id, userId) == [rows[0]] + rest;
      }
    }
  }

  // ---------------------------------------------------------------------------
  // The table as the source uses it: one shared object updated in place.

  class ExpenseTable {
    var rows: seq<Expense>
    /** The id the next INSERT receives. */
    var nextId: nat

    ghost predicate Valid()
      reads this
    {
      && IdsIncreasing(rows)
      && forall i :: 0 <= i < |rows| ==> rows[i].id < nextId
    }

    constructor ()
      ensures Valid() && rows == [] && nextId == 1
    {
      rows := [];
      nextId := 1;
    }

    /**
     * `createExpense`: stores `''` for a falsy note and `now` (the current
     * timestamp) for a falsy date, under a fresh id owned by `userId`; the
     * returned object echoes the arguments as given.
     */
    method CreateExpense(userId: int, amount: real, category: string, note: Option<string>, date: Option<string>, now: string)
      returns (r: Created)
      requires Valid()
      modifies this
      ensures Valid()
      ensures r.id == old(nextId) && nextId == old(nextId) + 1
      ensures forall e :: e in old(rows) ==> e.id < r.id
      ensures rows == old(rows) + [Expense(r.id, userId, amount, category, OrElse(note, ""), OrElse(date, now))]
      ensures r.userId == userId && r.amount == amount && r.category == category
      ensures r.note == note && r.date == date
      ensures forall w :: w != userId ==> OwnedBy(rows, w) == OwnedBy(old(rows), w)
      ensures Lookup(rows, r.id, userId) == Some(Expense(r.id, userId, amount, category, OrElse(note, ""), OrElse(date, now)))
    {
      var row := Expense(nextId, userId, amount, category, OrElse(note, ""), OrElse(date, now));
      LookupFresh(rows, row);
      rows := rows + [row];
      nextId := nextId + 1;
      r := Created(row.id, userId, amount, category, note, date);
      forall w | w != userId
        ensures OwnedBy(rows, w) == OwnedBy(old(rows), w)
      {
        OwnedByAppend(old(rows), [row], w);
        assert old(rows) + [] == old(rows);
      }
    }

    /** `getExpensesByUser`: exactly the caller's rows, newest date first. */
    method GetExpensesByUser(userId: int) returns (r: seq<Expense>)
      ensures SortedByDateDesc(r)
      ensures forall e :: multiset(r)[e] == if e.userId == userId then multiset(rows)[e] else 0
      ensures r == Listing(rows, userId)
    {
      r := Listing(rows, userId);
    }

    /** `getExpenseById`: a row is returned only when both its id and its owner match. */
    method GetExpenseById(id: int, userId: int) returns (r: Option<Expense>)
      ensures r.Some? ==> r.value in rows && r.value.id == id && r.value.userId == userId
      ensures r.None? <==> forall e :: e in rows ==> !Matches(e, id, userId)
      ensures r == Lookup(rows, id, userId)
    {
      r := Lookup(rows, id, userId);
    }

    /**
     * `updateExpense`: on a missing or foreign (id, owner) pair returns None
     * and changes nothing; otherwise patches that one row and returns it as
     * read back after the UPDATE.
     */
    method UpdateExpense(id: int, userId: int, fields: ExpensePatch) returns (r: Option<Expense>)
      requires Valid()
      modifies this
      ensures Valid() && nextId == old(nextId)
      ensures old(Lookup(rows, id, userId)).None? ==> r.None? && rows == old(rows)
      ensures old(Lookup(rows, id, userId)).Some? ==>
        && r == Some(Merge(old(Lookup(rows, id, userId)).value, fields))
        && rows == SetWhere(old(rows), id, userId, r.value)
      ensures |rows| == |old(rows)|
      ensures forall i :: 0 <= i < |rows| && rows[i] != old(rows)[i] ==> Matches(old(rows)[i], id, userId)
      ensures forall w :: w != userId ==> OwnedBy(rows, w) == OwnedBy(old(rows), w)
    {
      var existing := Lookup(rows, id, userId);
      if existing.None? {
        return None;
      }
      var merged := Merge(existing.value, fields);
      ghost var before := rows;
      SetWhereKeepsIds(before, id, userId, merged, nextId);
      rows := SetWhere(rows, id, userId, merged);
      LookupAfterSet(before, id, userId, merged);
      forall w | w != userId
        ensures OwnedBy(rows, w) == OwnedBy(before, w)
      {
        SetWhereKeepsOtherOwners(before, id, userId, merged, w);
      }
      r := Lookup(rows, id, userId);
    }

    /**
     * `deleteExpense`: true exactly when a row with (id, owner) existed; that
     * row is gone afterwards, so a second delete of it returns false.
     */
    method DeleteExpense(id: int, userId: int) returns (deleted: bool)
      requires Valid()
      modifies this
      ensures Valid() && nextId == old(nextId)
      ensures deleted <==> old(Lookup(rows, id, userId)).Some?
      ensures rows == RemoveWhere(old(rows), id, userId)
      ensures deleted ==> |rows| == |old(rows)| - 1
      ensures deleted ==> forall e :: e in rows <==> e in old(rows) && e != old(Lookup(rows, id, userId)).value
      ensures Lookup(rows, id, userId).None?
      ensures !deleted ==> rows == old(rows)
      ensures forall w :: w != userId ==> OwnedBy(rows, w) == OwnedBy(old(rows), w)
    {
      var before := rows;
      rows := RemoveWhere(rows, id, userId);
      deleted := |before| - |rows| > 0;
      if deleted {
        RemovesExactlyTheRow(before, id, userId);
      } else {
        RemoveNothing(before, id, userId);
      }
      RemoveWhereKeepsSubsequence(before, id, userId);
      forall i | 0 <= i < |rows|
        ensures rows[i].id < nextId
      {
        assert rows[i] in before;
      }
      forall w | w != userId
        ensures OwnedBy(rows, w) == OwnedBy(before, w)
      {
        RemoveWhereKeepsOtherOwners(before, id, userId, w);
      }
    }
  }
}

=== FILE: frontend.dfy ===
/**
 * The decisions of frontend/script.js that do not depend on the DOM: the
 * login state and the redirects taken from it, the headers of an API
 * request, the query string of the expense listing, and the theme switch.
 * localStorage reads arrive as `Option<string>` parameters (`None` for a
 * missing key), the page address as a string.
 */
module Frontend {
  import opened Common

  /** `Utils.isLoggedIn`: `!!token`, a stored token that is present and non-empty. */
  function IsLoggedIn(token: Option<string>): (b: bool)
    ensures b <==> token.Some? && token.value != ""
  {
    Truthy(token)
  }

  predicate StartsWith(s: string, part: string)
  {
    |part| <= |s| && s[..|part|] == part
  }

  /** `part` occurs in `s` starting at index `i`. */
  predicate OccursAt(s: string, part: string, i: int)
  {
    0 <= i <= |s| - |part| && s[i..i + |part|] == part
  }

  /** `s.includes(part)`. */
  predicate Includes(s: string, part: string)
    decreases |s|
  {
    StartsWith(s, part) || (s != [] && Includes(s[1..], part))
  }

  /** `includes` means `part` occurs at some index. */
  lemma {:induction false} IncludesAt(s: string, part: string)
    ensures Includes(s, part) <==> exists i :: OccursAt(s, part, i)
    decreases |s|
  {
    if StartsWith(s, part) {
      assert OccursAt(s, part, 0);
    }
    if s != [] {
      IncludesAt(s[1..], part);
      if Includes(s[1..], part) {
        var i :| OccursAt(s[1..], part, i);
        assert s[i + 1..i + 1 + |part|] == s[1..][i..i + |part|];
        assert OccursAt(s, part, i + 1);
      }
      if exists i :: OccursAt(s, part, i) {
        var i :| OccursAt(s, part, i);
        if i > 0 {
          assert s[1..][i - 1..i - 1 + |part|] == s[i..i + |part|];
          assert OccursAt(s[1..], part, i - 1);
        }
      }
    }
  }

  /** `part` placed anywhere in `s` is found by `includes`. */
  lemma IncludesInfix(before: string, part: string, after: string)
    ensures Includes(before + part + after, part)
  {
    var s := before + part + after;
    assert s[|before|..|before| + |part|] == part;
    assert OccursAt(s, part, |before|);
    IncludesAt(s, part);
  }

  /** `Utils.redirectToLogin`: whether it sends the browser to login.html. */
  function RedirectToLogin(token: Option<string>, href: string): (go: bool)
    ensures go <==> !IsLoggedIn(token) && forall i :: !OccursAt(href, "login.html", i)
  {
    IncludesAt(href, "login.html");
    !IsLoggedIn(token) && !Includes(href, "login.html")
  }

  /** `Utils.redirectIfLoggedIn`: whether it sends the browser to dashboard.html. */
  function RedirectIfLoggedIn(token: Option<string>, href: string): (go: bool)
    ensures go <==> IsLoggedIn(token) && forall i :: !OccursAt(href, "dashboard.html", i)
  {
    IncludesAt(href, "dashboard.html");
    IsLoggedIn(token) && !Includes(href, "dashboard.html")
  }

  /**
   * Neither redirect loops: no page is sent to itself, and the two are never
   * taken on the same state.
   */
  lemma RedirectsSettle(token: Option<string>, before: string, after: string, href: string)
    ensures !RedirectToLogin(token, before + "login.html" + after)
    ensures !RedirectIfLoggedIn(token, before + "dashboard.html" + after)
    ensures !(RedirectToLogin(token, href) && RedirectIfLoggedIn(token, href))
  {
    IncludesInfix(before, "login.html", after);
    IncludesInfix(before, "dashboard.html", after);
  }

  /** The check when the DOM is loaded: a logged-in user on the login page goes to dashboard.html. */
  function StartupRedirect(token: Option<string>, href: string): (target: Option<string>)
    ensures target.Some? <==> IsLoggedIn(token) && Includes(href, "login.html") && !Includes(href, "dashboard.html")
    ensures target.Some? ==> target.value == "dashboard.html"
  {
    if IsLoggedIn(token) && Includes(href, "login.html") && RedirectIfLoggedIn(token, href) then Some("dashboard.html")
    else None
  }

  type Headers = map<string, string>

  /** The default headers of `ApiService.request`: JSON, and a bearer token when one is stored. */
  function BaseHeaders(token: Option<string>): (h: Headers)
    ensures h.Keys == if IsLoggedIn(token) then {"Content-Type", "Authorization"} else {"Content-Type"}
    ensures h["Content-Type"] == "application/json"
    ensures IsLoggedIn(token) ==> h["Authorization"] == "Bearer " + token.value
  {
    map["Content-Type" := "application/json"] + (if Truthy(token) then map["Authorization" := "Bearer " + token.value] else map[])
  }

  /**
   * The headers `ApiService.request` sends, as written: `callerHeaders` is
   * `options.headers` (`None` when the caller gives none). The caller's
   * headers are merged into the defaults, but the `...options` spread that
   * follows puts `options.headers` back in place of the merged object.
   */
  function RequestHeaders(token: Option<string>, callerHeaders: Option<Headers>): (h: Headers)
    ensures callerHeaders.None? ==> h == BaseHeaders(token)
    ensures callerHeaders.Some? ==> h == callerHeaders.value
  {
    var merged := BaseHeaders(token) + (if callerHeaders.Some? then callerHeaders.value else map[]);
    if callerHeaders.Some? then callerHeaders.value else merged
  }

  /** A caller that adds any header of its own loses the bearer token and the JSON content type. */
  lemma CallerHeadersDropToken()
    ensures var h := RequestHeaders(Some("t"), Some(map["X-Request-Id" := "1"]));
      "Authorization" !in h && "Content-Type" !in h
  {
  }

  /** The merge the headers object is evidently written for: defaults first, the caller's headers over them. */
  function MergedRequestHeaders(token: Option<string>, callerHeaders: Option<Headers>): (h: Headers)
    ensures callerHeaders.Some? ==> forall k :: k in callerHeaders.value ==> k in h && h[k] == callerHeaders.value[k]
    ensures forall k :: k in h ==> k in BaseHeaders(token) || (callerHeaders.Some? && k in callerHeaders.value)
    ensures "Content-Type" in h
    ensures (callerHeaders.None? || "Content-Type" !in callerHeaders.value) ==> h["Content-Type"] == "application/json"
    ensures IsLoggedIn(token) && (callerHeaders.None? || "Authorization" !in callerHeaders.value) ==>
      "Authorization" in h && h["Authorization"] == "Bearer " + token.value
  {
    BaseHeaders(token) + (if callerHeaders.Some? then callerHeaders.value else map[])
  }

  /** Every request script.js makes passes no headers of its own, and there the two agree. */
  lemma MergedAgreesWithoutCallerHeaders(token: Option<string>)
    ensures MergedRequestHeaders(token, None) == RequestHeaders(token, None)
  {
    assert BaseHeaders(token) + map[] == BaseHeaders(token);
  }

  /** An entry of the `filters` object of `getExpenses`; `None` stands for a missing or empty value. */
  datatype Filter = Filter(key: string, value: Option<string>)

  /** The pairs appended to the URLSearchParams: the filters with a truthy value, in key order. */
  function KeepTruthy(filters: seq<Filter>): (r: seq<(string, string)>)
    ensures |r| <= |filters|
    ensures forall p :: p in r ==> p.1 != ""
  {
    if filters == [] then []
    else
      var last := filters[|filters| - 1];
      KeepTruthy(filters[..|filters| - 1]) + (if Truthy(last.value) then [(last.key, last.value.value)] else [])
  }

  /** Filtering distributes over concatenation, so the kept pairs keep the keys' order. */
  lemma {:induction false} KeepTruthyAppend(a: seq<Filter>, b: seq<Filter>)
    ensures KeepTruthy(a + b) == KeepTruthy(a) + KeepTruthy(b)
    decreases |b|
  {
    if b == [] {
      assert a + b == a;
    } else {
      var b' := b[..|b| - 1];
      assert (a + b)[..|a + b| - 1] == a + b';
      KeepTruthyAppend(a, b');
    }
  }

  /** A pair is sent exactly when a filter with that key carries that non-empty value. */
  lemma {:induction false} KeepTruthyMembers(filters: seq<Filter>, key: string, value: string)
    ensures (key, value) in KeepTruthy(filters) <==> Filter(key, Some(value)) in filters && value != ""
  {
    if filters != [] {
      var init := filters[..|filters| - 1];
      KeepTruthyMembers(init, key, value);
      assert filters == init + [filters[|filters| - 1]];
    }
  }

  /**
   * `URLSearchParams.toString()` without percent-encoding: `key=value` joined
   * by '&'; empty exactly when there are no pairs.
   */
  function QueryString(params: seq<(string, string)>): (q: string)
    ensures q == "" <==> params == []
  {
    if params == [] then ""
    else
      var q := params[0].0 + "=" + params[0].1 + (if |params| == 1 then "" else "&" + QueryString(params[1..]));
      assert q[|params[0].0|] == '=';
      q
  }

  /**
   * `ApiService.getExpenses`: the endpoint it requests. A '?' and the query
   * string follow `/expenses` only when some filter has a truthy value.
   */
  method GetExpensesEndpoint(filters: seq<Filter>) returns (endpoint: string)
    ensures KeepTruthy(filters) == [] ==> endpoint == "/expenses"
    ensures KeepTruthy(filters) != [] ==> endpoint == "/expenses?" + QueryString(KeepTruthy(filters))
  {
    var params: seq<(string, string)> := [];
    var i := 0;
    while i < |filters|
      invariant 0 <= i <= |filters|
      invariant params == KeepTruthy(filters[..i])
    {
      var f := filters[i];
      assert filters[..i + 1][..i] == filters[..i];
      if Truthy(f.value) {
        params := params + [(f.key, f.value.value)];
      }
      i := i + 1;
    }
    assert filters[..i] == filters;
    var queryString := QueryString(params);
    endpoint := "/expenses" + (if queryString != "" then "?" + queryString else "");
  }

  /** The theme in effect: the `data-theme` value, or 'light' when it is missing or empty. */
  function EffectiveTheme(theme: Option<string>): (t: string)
    ensures Truthy(theme) ==> t == theme.value
    ensures !Truthy(theme) ==> t == "light"
  {
    OrElse(theme, "light")
  }

  /** The theme `toggleTheme` switches to: 'dark' from 'light', 'light' from anything else. */
  function NextTheme(current: Option<string>): (t: string)
    ensures t == "dark" <==> EffectiveTheme(current) == "light"
    ensures t == "light" <==> EffectiveTheme(current) != "light"
  {
    if EffectiveTheme(current) == "light" then "dark" else "light"
  }

  /** The toggle icon's class for a theme: a sun in the dark theme, a moon otherwise. */
  function IconFor(theme: string): (c: string)
    ensures c == "fas fa-sun" <==> theme == "dark"
    ensures c == "fas fa-moon" <==> theme != "dark"
  {
    if theme == "dark" then "fas fa-sun" else "fas fa-moon"
  }

  /** Toggling twice from either theme comes back to it; any other value settles on 'light' after one toggle. */
  lemma ToggleTwice(theme: string)
    ensures theme == "light" || theme == "dark" ==> NextTheme(Some(NextTheme(Some(theme)))) == theme
    ensures theme != "light" && theme != "dark" && theme != "" ==> NextTheme(Some(theme)) == "light"
  {
  }

  /** What ThemeManager touches: the body's `data-theme`, the stored 'theme', the toggle icon's class. */
  class ThemeState {
    var bodyTheme: Option<string>
    var savedTheme: Option<string>
    /** `None` when the page has no `#themeToggle i`. */
    var iconClass: Option<string>

    constructor (saved: Option<string>, icon: Option<string>)
      ensures bodyTheme == None && savedTheme == saved && iconClass == icon
    {
      bodyTheme := None;
      savedTheme := saved;
      iconClass := icon;
    }

    /** `updateThemeIcon`: sets the icon's class when the page has the icon. */
    method UpdateThemeIcon(theme: string)
      modifies this
      ensures iconClass == if old(iconClass).Some? then Some(IconFor(theme)) else None
      ensures bodyTheme == old(bodyTheme) && savedTheme == old(savedTheme)
    {
      if iconClass.Some? {
        iconClass := Some(IconFor(theme));
      }
    }

    /** `applySavedTheme`: the stored theme, or 'light', goes onto the body; storage is left alone. */
    method ApplySavedTheme()
      modifies this
      ensures bodyTheme == Some(EffectiveTheme(old(savedTheme)))
      ensures savedTheme == old(savedTheme)
      ensures iconClass == if old(iconClass).Some? then Some(IconFor(EffectiveTheme(old(savedTheme)))) else None
    {
      var theme := EffectiveTheme(savedTheme);
      bodyTheme := Some(theme);
      UpdateThemeIcon(theme);
    }

    /** `toggleTheme`: the next theme goes onto the body and into storage, which then agree. */
    method ToggleTheme()
      modifies this
      ensures bodyTheme == Some(NextTheme(old(bodyTheme)))
      ensures savedTheme == bodyTheme
      ensures iconClass == if old(iconClass).Some? then Some(IconFor(NextTheme(old(bodyTheme)))) else None
    {
      var theme := NextTheme(bodyTheme);
      bodyTheme := Some(theme);
      savedTheme := Some(theme);
      UpdateThemeIcon(theme);
    }
  }
}

=== FILE: login.dfy ===
/**
 * The checks LoginManager in login.js makes before calling the login API:
 * both fields present and non-empty, then the email matched against
 * `^[^\s@]+@[^\s@]+\.[^\s@]+$`.
 */
module Login {
  import opened Common

  /** A character matched by `\s` in a JavaScript regular expression. */
  predicate IsJsSpace(c: char)
  {
    || c == '\t' || c == '\n' || c == '\U{000B}' || c == '\U{000C}' || c == '\r' || c == ' '
    || c == '\U{00A0}' || c == '\U{1680}' || ('\U{2000}' <= c <= '\U{200A}')
    || c == '\U{2028}' || c == '\U{2029}' || c == '\U{202F}' || c == '\U{205F}'
    || c == '\U{3000}' || c == '\U{FEFF}'
  }

  /** A string matched by `[^\s@]+`: non-empty, no whitespace, no '@'. */
  predicate Run(s: string)
  {
    |s| > 0 && forall i :: 0 <= i < |s| ==> !IsJsSpace(s[i]) && s[i] != '@'
  }

  /** `isValidEmail`: the whole string splits as run, '@', run, '.', run. */
  predicate IsValidEmail(s: string)
  {
    exists a, d :: 0 <= a < d < |s| && s[a] == '@' && s[d] == '.' && Run(s[..a]) && Run(s[a + 1..d]) && Run(s[d + 1..])
  }

  /**
   * The same language without the regular expression: no whitespace,
   * exactly one '@', something before it, and after it a '.' that is
   * neither the first nor the last character of the domain part.
   */
  predicate HasEmailShape(s: string)
  {
    && (forall i :: 0 <= i < |s| ==> !IsJsSpace(s[i]))
    && multiset(s)['@'] == 1
    && forall a :: 0 <= a < |s| && s[a] == '@' ==> 0 < a && exists d :: a + 1 < d < |s| - 1 && s[d] == '.'
  }

  lemma NoAt(x: string)
    requires forall i :: 0 <= i < |x| ==> x[i] != '@'
    ensures multiset(x)['@'] == 0
  {
    assert '@' !in x;
  }

  /** Two '@' at different places count twice. */
  lemma TwoAts(s: string, i: nat, j: nat)
    requires i < j < |s| && s[i] == '@' && s[j] == '@'
    ensures multiset(s)['@'] >= 2
  {
    assert s == s[..i] + [s[i]] + s[i + 1..j] + [s[j]] + s[j + 1..];
  }

  /** Every string the regular expression accepts has the email shape. */
  lemma ValidHasShape(s: string)
    requires IsValidEmail(s)
    ensures HasEmailShape(s)
  {
    var a, d :| 0 <= a < d < |s| && s[a] == '@' && s[d] == '.' && Run(s[..a]) && Run(s[a + 1..d]) && Run(s[d + 1..]);
    forall i | 0 <= i < |s|
      ensures !IsJsSpace(s[i]) && (s[i] == '@' ==> i == a)
    {
      if i < a {
        assert s[i] == s[..a][i];
      } else if a < i < d {
        assert s[i] == s[a + 1..d][i - a - 1];
      } else if d < i {
        assert s[i] == s[d + 1..][i - d - 1];
      }
    }
    AtCount(s, a, d);
  }

  lemma AtCount(s: string, a: nat, d: nat)
    requires a < d < |s| && s[a] == '@' && s[d] == '.'
    requires Run(s[..a]) && Run(s[a + 1..d]) && Run(s[d + 1..])
    ensures multiset(s)['@'] == 1
  {
    assert s == s[..a] + [s[a]] + s[a + 1..d] + [s[d]] + s[d + 1..];
    NoAt(s[..a]);
    NoAt(s[a + 1..d]);
    NoAt(s[d + 1..]);
  }

  /** Every string with the email shape is accepted by the regular expression. */
  lemma ShapeIsValid(s: string)
    requires HasEmailShape(s)
    ensures IsValidEmail(s)
  {
    assert '@' in multiset(s);
    var a :| 0 <= a < |s| && s[a] == '@';
    var d :| a + 1 < d < |s| - 1 && s[d] == '.';
    forall i | 0 <= i < |s| && i != a
      ensures s[i] != '@'
    {
      if s[i] == '@' {
        if i < a { TwoAts(s, i, a); } else { TwoAts(s, a, i); }
      }
    }
    assert Run(s[..a]);
    assert Run(s[a + 1..d]);
    assert Run(s[d + 1..]);
  }

  /** What the regular expression accepts is exactly the email shape, in both directions. */
  lemma EmailShape(s: string)
    ensures IsValidEmail(s) <==> HasEmailShape(s)
  {
    if IsValidEmail(s) {
      ValidHasShape(s);
    }
    if HasEmailShape(s) {
      ShapeIsValid(s);
    }
  }

  /** The verdict of `validateForm`, each failure with the message it shows. */
  datatype FormCheck = Accepted | MissingField | BadEmail

  function Message(v: FormCheck): (m: Option<string>)
    ensures m.None? <==> v == Accepted
  {
    match v
    case Accepted => None
    case MissingField => Some("Please fill in all fields")
    case BadEmail => Some("Please enter a valid email address")
  }

  /**
   * `validateForm(email, password)` on the two form fields (`None` when
   * FormData has no such field): the empty-field check comes first, the
   * email format second.
   */
  function ValidateForm(email: Option<string>, password: Option<string>): (v: FormCheck)
    ensures v == MissingField <==> !Truthy(email) || !Truthy(password)
    ensures v == BadEmail <==> Truthy(email) && Truthy(password) && !IsValidEmail(email.value)
    ensures v == Accepted <==> Truthy(email) && Truthy(password) && IsValidEmail(email.value)
  {
    if !Truthy(email) || !Truthy(password) then MissingField
    else if !IsValidEmail(email.value) then BadEmail
    else Accepted
  }

  /**
   * `handleLogin`: the email and password it passes to the login API, or
   * None when validation fails and it returns before any call.
   */
  function LoginCall(email: Option<string>, password: Option<string>): (call: Option<(string, string)>)
    ensures call.Some? <==> ValidateForm(email, password) == Accepted
    ensures call.Some? ==> call.value == (email.value, password.value)
    ensures call.Some? ==> call.value.1 != "" && HasEmailShape(call.value.0)
  {
    if ValidateForm(email, password) != Accepted then None
    else
      EmailShape(email.value);
      Some((email.value, password.value))
  }

  /** An empty email is reported as a missing field, never as a malformed address. */
  lemma EmptyFieldCheckedFirst(password: Option<string>)
    ensures ValidateForm(Some(""), password) == MissingField
    ensures Message(ValidateForm(Some(""), password)) == Some("Please fill in all fields")
    ensures ValidateForm(None, password) == MissingField
    ensures !IsValidEmail("")
  {
  }
}

=== FILE: user.dfy ===
/**
 * The static methods of models/User.js, each run against the shared
 * database: registration with a unique email and a by-value copy of the
 * category template, lookup by email, and the settings columns.
 */
module UserModel {
  import opened Common
  import opened Database

  /** What `create` reports on success. */
  datatype NewUser = NewUser(id: nat, name: string, email: string)

  /**
   * Why `create` failed: bcrypt's own error, the UNIQUE violation on email
   * (turned into an error with the message "Email already exists"), or any
   * other failure of the users INSERT.
   */
  datatype UserError = HashFailed | Rejected(message: string) | InsertFailed

  const EmailExists: string := "Email already exists"

  /** `.get` on the users table: the first row that satisfies the WHERE clause `matches`. */
  function FirstUser(users: seq<User>, matches: User -> bool): (r: Option<User>)
    ensures r.Some? ==> r.value in users && matches(r.value)
    ensures r.None? ==> forall u :: u in users ==> !matches(u)
    ensures r.Some? ==> exists i :: 0 <= i < |users| && users[i] == r.value && forall j :: 0 <= j < i ==> !matches(users[j])
  {
    if users == [] then None
    else if matches(users[0]) then Some(users[0])
    else FirstUser(users[1..], matches)
  }

  /** `SELECT * FROM users WHERE email = ?` with `.get`: the first row with that email. */
  function UserByEmail(users: seq<User>, email: string): (r: Option<User>)
    ensures r.Some? ==> r.value in users && r.value.email == email
    ensures r.None? ==> forall u :: u in users ==> u.email != email
    ensures r.Some? ==> exists i :: 0 <= i < |users| && users[i] == r.value && forall j :: 0 <= j < i ==> users[j].email != email
  {
    FirstUser(users, (u: User) => u.email == email)
  }

  /** `SELECT ... FROM users WHERE id = ?` with `.get`: the first row with that id. */
  function UserById(users: seq<User>, id: int): (r: Option<User>)
    ensures r.Some? ==> r.value in users && r.value.id == id
    ensures r.None? ==> forall u :: u in users ==> u.id != id
    ensures r.Some? ==> exists i :: 0 <= i < |users| && users[i] == r.value && forall j :: 0 <= j < i ==> users[j].id != id
  {
    FirstUser(users, (u: User) => u.id == id)
  }

  /**
   * `UPDATE users SET monthly_budget = ?, currency = ?, theme = ? WHERE id = ?`:
   * the rows with that id take all three settings, every other column and
   * every other row stays as it was.
   */
  function SetSettings(users: seq<User>, id: int, settings: Settings): (r: seq<User>)
    ensures |r| == |users|
    ensures forall i :: 0 <= i < |users| ==>
      && r[i].id == users[i].id && r[i].name == users[i].name
      && r[i].email == users[i].email && r[i].password == users[i].password
    ensures forall i :: 0 <= i < |users| ==> r[i].settings == if users[i].id == id then settings else users[i].settings
  {
    seq(|users|, i requires 0 <= i < |users| => if users[i].id == id then users[i].(settings := settings) else users[i])
  }

  /** The number of rows `WHERE id = ?` selects: what `this.changes` reports for the UPDATE. */
  function CountId(users: seq<User>, id: int): nat
  {
    if users == [] then 0
    else (if users[0].id == id then 1 else 0) + CountId(users[1..], id)
  }

  /** With increasing ids an id selects one row or none. */
  lemma {:induction false} CountIdIsZeroOrOne(users: seq<User>, id: int)
    requires UserIdsIncreasing(users)
    ensures CountId(users, id) == if UserById(users, id).Some? then 1 else 0
  {
    if users != [] {
      var tail := users[1..];
      assert UserIdsIncreasing(tail);
      CountIdIsZeroOrOne(tail, id);
      if users[0].id == id {
        forall u | u in tail
          ensures u.id != id
        {
          var k :| 0 <= k < |tail| && tail[k] == u;
          assert users[k + 1] == u;
        }
      }
    }
  }

  /**
   * `updateSettings` then `getSettings` of the same existing id gives back
   * exactly the settings written, absent ones as NULL: the UPDATE replaces all
   * three columns, it does not patch them.
   */
  lemma {:induction false} SettingsRoundTrip(users: seq<User>, id: int, settings: Settings)
    requires UserById(users, id).Some?
    ensures UserById(SetSettings(users, id, settings), id) == Some(UserById(users, id).value.(settings := settings))
  {
    var after := SetSettings(users, id, settings);
    if users[0].id != id {
      assert after[1..] == SetSettings(users[1..], id, settings);
      SettingsRoundTrip(users[1..], id, settings);
    }
  }

  /**
   * `User.create`. bcrypt's failure and the two statements' failures are
   * parameters (`hashFails`, `insertFails`, `copyFails`); `hash` is bcrypt
   * with this call's salt. A taken email fails with "Email already exists"
   * and changes nothing. On success the user row holds `hash(password)` and
   * the column defaults, and one statement copies every NULL-owner category
   * to the new id; if that copy fails, `create` still reports success.
   */
  method Create(db: Db, name: string, email: string, password: string, hash: string -> string,
                hashFails: bool, insertFails: bool, copyFails: bool)
    returns (r: Result<NewUser, UserError>)
    requires db.Valid()
    modifies db
    ensures db.Valid()
    ensures r.Success? <==> !hashFails && UserByEmail(old(db.users), email).None? && !insertFails
    ensures hashFails ==> r == Failure(HashFailed)
    ensures !hashFails && UserByEmail(old(db.users), email).Some? ==> r == Failure(Rejected(EmailExists))
    ensures !hashFails && UserByEmail(old(db.users), email).None? && insertFails ==> r == Failure(InsertFailed)
    ensures r.Failure? ==> unchanged(db)
    ensures r.Success? ==>
      && r.value == NewUser(old(db.nextUserId), name, email)
      && db.nextUserId == old(db.nextUserId) + 1
      && (forall u :: u in old(db.users) ==> u.id < r.value.id)
      && db.users == old(db.users) + [User(r.value.id, name, email, hash(password), DefaultSettings)]
    ensures r.Success? && copyFails ==> db.categories == old(db.categories) && db.nextCategoryId == old(db.nextCategoryId)
    ensures r.Success? && !copyFails ==>
      && db.categories == old(db.categories) + Rows(Template(old(db.categories)), Some(r.value.id), old(db.nextCategoryId))
      && db.nextCategoryId == old(db.nextCategoryId) + |Template(old(db.categories))|
      && StylesOf(db.categories, Some(r.value.id)) == Template(old(db.categories))
      && Template(db.categories) == Template(old(db.categories))
  {
    if hashFails {
      return Failure(HashFailed);
    }
    var hashed := hash(password);
    if UserByEmail(db.users, email).Some? {
      return Failure(Rejected(EmailExists));
    }
    if insertFails {
      return Failure(InsertFailed);
    }
    var id := db.nextUserId;
    AppendUserKeepsSchema(db.users, User(id, name, email, hashed, DefaultSettings));
    db.users := db.users + [User(id, name, email, hashed, DefaultSettings)];
    db.nextUserId := db.nextUserId + 1;
    if !copyFails {
      CopyTemplate(db, id);
    }
    r := Success(NewUser(id, name, email));
  }

  /** The users INSERT keeps ids increasing and emails unique when the email is new and the id is fresh. */
  lemma AppendUserKeepsSchema(users: seq<User>, u: User)
    requires UserIdsIncreasing(users) && UniqueEmails(users)
    requires forall i :: 0 <= i < |users| ==> users[i].id < u.id
    requires UserByEmail(users, u.email).None?
    ensures UserIdsIncreasing(users + [u]) && UniqueEmails(users + [u])
    ensures forall i :: 0 <= i < |users + [u]| ==> (users + [u])[i].id <= u.id
  {
    var all := users + [u];
    forall i, j | 0 <= i < j < |all|
      ensures all[i].id < all[j].id && all[i].email != all[j].email
    {
      if j == |users| {
        assert all[i] in users;
      }
    }
  }

  /** The settings UPDATE keeps every row's id and email, so the users table stays within its schema. */
  lemma SetSettingsKeepsSchema(users: seq<User>, id: int, settings: Settings, next: nat)
    requires UserIdsIncreasing(users) && UniqueEmails(users)
    requires forall i :: 0 <= i < |users| ==> users[i].id < next
    ensures var after := SetSettings(users, id, settings);
      && UserIdsIncreasing(after) && UniqueEmails(after)
      && (forall i :: 0 <= i < |after| ==> after[i].id < next)
  {
    var after := SetSettings(users, id, settings);
    assert forall i :: 0 <= i < |after| ==> after[i].id == users[i].id && after[i].email == users[i].email;
  }

  /** `INSERT INTO categories (user_id, name, color, icon) SELECT ?, name, color, icon ... WHERE user_id IS NULL`. */
  method CopyTemplate(db: Db, id: nat)
    requires db.Valid()
    requires id + 1 == db.nextUserId
    requires forall i :: 0 <= i < |db.categories| && db.categories[i].owner.Some? ==> db.categories[i].owner.value < id
    modifies db
    ensures db.Valid()
    ensures db.users == old(db.users) && db.nextUserId == old(db.nextUserId)
    ensures db.categories == old(db.categories) + Rows(Template(old(db.categories)), Some(id), old(db.nextCategoryId))
    ensures db.nextCategoryId == old(db.nextCategoryId) + |Template(old(db.categories))|
    ensures StylesOf(db.categories, Some(id)) == Template(old(db.categories))
    ensures Template(db.categories) == Template(old(db.categories))
  {
    var cats := db.categories;
    var copies := Rows(Template(cats), Some(id), db.nextCategoryId);
    CopyKeepsSchema(cats, id, db.nextCategoryId);
    CopyGivesTemplate(cats, id, db.nextCategoryId);
    db.categories := cats + copies;
    db.nextCategoryId := db.nextCategoryId + |Template(cats)|;
  }

  /** The copy keeps the categories table within its schema. */
  lemma CopyKeepsSchema(cats: seq<Category>, id: nat, firstId: nat)
    requires CategoryIdsIncreasing(cats) && forall i :: 0 <= i < |cats| ==> cats[i].id < firstId
    requires UniqueOwnerNames(cats)
    requires forall i :: 0 <= i < |cats| && cats[i].owner.Some? ==> cats[i].owner.value < id
    ensures var all := cats + Rows(Template(cats), Some(id), firstId);
      && CategoryIdsIncreasing(all)
      && (forall i :: 0 <= i < |all| ==> all[i].id < firstId + |Template(cats)|)
      && UniqueOwnerNames(all)
      && (forall i :: 0 <= i < |all| && all[i].owner.Some? ==> all[i].owner.value <= id)
  {
    StylesOfDistinct(cats, None);
    forall c | c in cats
      ensures c.owner != Some(id)
    {
      var k :| 0 <= k < |cats| && cats[k] == c;
    }
    AppendRowsKeepsUnique(cats, Template(cats), Some(id), firstId);
  }

  /** After the copy the new owner lists exactly the template, and the template itself is unchanged. */
  lemma CopyGivesTemplate(cats: seq<Category>, id: nat, firstId: nat)
    requires forall i :: 0 <= i < |cats| && cats[i].owner.Some? ==> cats[i].owner.value < id
    ensures StylesOf(cats + Rows(Template(cats), Some(id), firstId), Some(id)) == Template(cats)
    ensures Template(cats + Rows(Template(cats), Some(id), firstId)) == Template(cats)
  {
    var copies := Rows(Template(cats), Some(id), firstId);
    StylesOfAppend(cats, copies, Some(id));
    StylesOfAppend(cats, copies, None);
    StylesOfRows(Template(cats), Some(id), firstId, Some(id));
    StylesOfRows(Template(cats), Some(id), firstId, None);
    forall c | c in cats
      ensures c.owner != Some(id)
    {
      var k :| 0 <= k < |cats| && cats[k] == c;
    }
    NoRowsOfFreshOwner(cats, id);
    assert [] + Template(cats) == Template(cats);
    assert Template(cats) + [] == Template(cats);
  }

  /** An owner id no category carries lists no styles. */
  lemma {:induction false} NoRowsOfFreshOwner(cats: seq<Category>, id: nat)
    requires forall c :: c in cats ==> c.owner != Some(id)
    ensures StylesOf(cats, Some(id)) == []
  {
    if cats != [] {
      assert cats[0] in cats;
      assert forall c :: c in cats[1..] ==> c in cats;
      NoRowsOfFreshOwner(cats[1..], id);
    }
  }

  /** `User.findByEmail`: the row with that email, or nothing; by UNIQUE(email) it is the only one. */
  method FindByEmail(db: Db, email: string) returns (r: Option<User>)
    ensures r.Some? ==> r.value in db.users && r.value.email == email
    ensures r.None? <==> forall u :: u in db.users ==> u.email != email
    ensures r.Some? && UniqueEmails(db.users) ==> forall u :: u in db.users && u.email == email ==> u == r.value
  {
    r := UserByEmail(db.users, email);
    if r.Some? && UniqueEmails(db.users) {
      forall u | u in db.users && u.email == email
        ensures u == r.value
      {
        var i :| 0 <= i < |db.users| && db.users[i] == u;
        var j :| 0 <= j < |db.users| && db.users[j] == r.value;
        assert i == j;
      }
    }
  }

  /**
   * `User.updateSettings`: writes all three settings columns of the row with
   * that id, an absent field as NULL; no other row and no other column
   * changes. Reports the number of rows changed, 0 for an unknown id.
   */
  method UpdateSettings(db: Db, userId: int, settings: Settings) returns (changes: nat)
    requires db.Valid()
    modifies db
    ensures db.Valid()
    ensures changes == if UserById(old(db.users), userId).Some? then 1 else 0
    ensures db.users == SetSettings(old(db.users), userId, settings)
    ensures UserById(old(db.users), userId).Some? ==>
      UserById(db.users, userId) == Some(UserById(old(db.users), userId).value.(settings := settings))
    ensures forall i :: 0 <= i < |db.users| && db.users[i] != old(db.users)[i] ==> old(db.users)[i].id == userId
    ensures db.categories == old(db.categories) && db.nextUserId == old(db.nextUserId) && db.nextCategoryId == old(db.nextCategoryId)
  {
    changes := CountId(db.users, userId);
    CountIdIsZeroOrOne(db.users, userId);
    if UserById(db.users, userId).Some? {
      SettingsRoundTrip(db.users, userId, settings);
    }
    SetSettingsKeepsSchema(db.users, userId, settings, db.nextUserId);
    db.users := SetSettings(db.users, userId, settings);
  }

  /** `User.getSettings`: exactly the three settings columns of the row with that id, or nothing. */
  method GetSettings(db: Db, userId: int) returns (r: Option<Settings>)
    ensures r.None? <==> forall u :: u in db.users ==> u.id != userId
    ensures r.Some? ==> exists u :: u in db.users && u.id == userId && u.settings == r.value
  {
    var row := UserById(db.users, userId);
    r := if row.Some? then Some(row.value.settings) else None;
  }
}
